=== FILE: README.md ===
# OnFlyCallGraph edge store, modelled in Dafny

This project models the call-graph store of Qilin's on-the-fly call graph
(`OnFlyCallGraph`). The store keeps:

- a set of method signatures;
- the context-free calls, filed per source method, with a counter;
- a set of edges, compared by value (source method in context, call site,
  target method in context, kind);
- three intrusive chains that thread every edge by call site, by source method
  and by target method, each with an index from key to head edge;
- an append-only stream of edges, read by listeners.

Edge objects are references into an arena: reference `i` is the `i`-th edge
the store accepted, and it is also that edge's stream slot. The edge set
compares edges by value. The index heads and the chains compare them by
reference, as the Java code does with `==`. Each chain is a sequence of
references with the head first. The sentinel edge of kind `INVALID`, which ends
every ring segment, becomes the end of the sequence.

Modules, following the source:

- `Types` (types.dfy): signatures, statements, methods in context, kinds, edges, calls.
- `Chain` (chain.dfy): the three chains and their indices. `Link` is `insertAfterBy*`; `Unlink` is `Edge.remove` plus the head check.
- `Queue` (queue.dfy): the edge stream with tombstones, and its readers.
- `Store` (graph.dfy): the store, its invariants, and the method and call bookkeeping.
- `Iterators` (iterators.dfy): the three edge iterators and `findEdge`.
- `EdgeOps` (edges.dfy): `addEdge` and `removeEdge`.
- `Listeners` (listeners.dfy): `listener` and `newListener`.
- `BulkOps` (bulk.dfy): `removeAllEdgesOutOf`, `removeEdges` and `swapEdgesOutOf`.
- `Findings` (findings.dfy): the three discrepancies listed below.

Invariants. `Consistent` holds between any two steps of the store:

- stream slots match references;
- no two equal objects are in the edge set;
- the endpoints and calls of live edges are recorded;
- the call counter equals the number of recorded calls;
- the chains are well formed and thread every live edge.

`Valid` adds that only edges of the edge set remain in the stream. `Tidy` says
the chains hold only edges of the edge set. `NoInvalidEdges` says no edge
threaded into a chain has the kind `INVALID`. `removeEdge(e, false)` keeps
`Consistent` and leaves the stream for its caller to update; every other
operation keeps `Valid` (for `addMethod` and `addCall`, `Store.AddMethodValid` and
`Store.AddCallValid`).

`addEdge` and `removeAllEdgesOutOf` keep `Tidy`. The corrected `removeEdges` keeps it
for a list whose objects are each live or have no equal edge present
(`BulkOps.RemoveEdgesFixedTidy`); a stale object equal to a live edge leaves that
edge threaded (`BulkOps.RemoveEdgesFixedStaleUntidy`).
`removeEdge` keeps it when the object it is given is live, or when no equal edge
is present (`EdgeOps.RemoveTidy`). Given a stale object that equals a live one,
it takes the live edge out of the edge set but leaves it threaded
(`EdgeOps.RemoveStaleLeavesThreaded`), because the set removal compares by
`equals` while the head checks compare by `==`. What the chains look like in
Java afterwards also depends on `Edge.remove` on an already unlinked object,
which the model takes as doing nothing (see Left out).
`removeEdges` as written does not keep `Tidy` (see Findings). For
`swapEdgesOutOf` it is not proved (see Left out).

Three behaviours of the code are easy to misread. The model follows the code as written:

- `addEdge` does not make a new edge the head of its chains. It splices the edge
  in right after the existing head, and makes it the head only of a key that had
  none. So a chain lists its head, then the other edges newest first
  (`EdgeOps.AddEdgeThreads`).
- `removeEdge` does not remove the call it recorded. The code at
  OnFlyCallGraph.java:176 asks the set of calls to drop a method signature,
  which that set never holds.
- `callsTo`, `callSourcesTo`, `diff`, `copy` and `exportAsDot` throw
  `UnsupportedOperationException`. They are modelled as `Fail(Unsupported)`
  (`Store.CallsTo` and its neighbours).

## Model

| member | source | states |
|---|---|---|
| Chain.Link | sootup.qilin/src/main/java/qilin/core/builder/callgraph/OnFlyCallGraph.java:80-99 | Linking adds the key and leaves every other key's chain alone. For a key with a head, the head stays, the new edge comes second, and the old tail follows. For a new key, the chain is just the new edge. |
| Chain.LinkWF | sootup.qilin/src/main/java/qilin/core/builder/callgraph/OnFlyCallGraph.java:80-99 | After linking a fresh edge, every chain is still well formed: non-empty, only edges of its key, no repeats, tail newest first. |
| Chain.Unlink | sootup.qilin/src/main/java/qilin/core/builder/callgraph/OnFlyCallGraph.java:177-199 | Unlinking takes the edge out of its key's chain and keeps every other edge of that chain. It never adds a key, and other keys are untouched. |
| Chain.UnlinkWF | sootup.qilin/src/main/java/qilin/core/builder/callgraph/OnFlyCallGraph.java:177-199 | Unlinking keeps every chain well formed. |
| Chain.UnlinkHead | sootup.qilin/src/main/java/qilin/core/builder/callgraph/OnFlyCallGraph.java:179-199 | If the head is removed, the key stays exactly when the chain had another edge, and that next edge becomes the head. If another edge is removed, the head stays. |
| Chain.UnlinkKeeps | sootup.qilin/src/main/java/qilin/core/builder/callgraph/OnFlyCallGraph.java:177-199 | Unlinking one edge leaves every other edge threaded where it was. |
| Queue.NextPending | sootup.qilin/src/main/java/qilin/core/builder/callgraph/OnFlyCallGraph.java:111-113 | One reader step delivers the first pending edge (or a tombstone) and leaves the rest pending. |
| Queue.PendingAppend | sootup.qilin/src/main/java/qilin/core/builder/callgraph/OnFlyCallGraph.java:78 | Every reader that has not passed the end sees an appended edge after everything it already had pending. |
| Queue.RemoveAll | sootup.qilin/src/main/java/qilin/core/builder/callgraph/OnFlyCallGraph.java:121-123 | Removal through a reader keeps the stream's length, never moves or fills a slot, and afterwards a slot holds an edge exactly when it held one that is not being removed. |
| Queue.PendingRemoveAll | sootup.qilin/src/main/java/qilin/core/builder/callgraph/OnFlyCallGraph.java:203-205 | After a removal, every reader has pending exactly what it had, minus the dropped edges, in the same order. |
| Queue.Drain | sootup.qilin/src/main/java/qilin/core/builder/callgraph/OnFlyCallGraph.java:111-113 | Draining a reader with hasNext/next and skipping null yields exactly its pending edges, in stream order. |
| Store.AddMethod | sootup.qilin/src/main/java/qilin/core/builder/callgraph/OnFlyCallGraph.java:432-434 | After addMethod, containsMethod holds for the added method and for every method it held before, and for nothing else. The calls, edges, stream and chains are unchanged. |
| Store.AddCall | sootup.qilin/src/main/java/qilin/core/builder/callgraph/OnFlyCallGraph.java:437-445 | addCall records the call, leaves every other call's answer alone, and bumps the counter exactly when the call was new. |
| Store.AddMethodValid | sootup.qilin/src/main/java/qilin/core/builder/callgraph/OnFlyCallGraph.java:432-434 | addMethod keeps every invariant of the store. |
| Store.AddCallValid | sootup.qilin/src/main/java/qilin/core/builder/callgraph/OnFlyCallGraph.java:437-445 | addCall keeps every invariant of the store. |
| Store.AddCallCounted | sootup.qilin/src/main/java/qilin/core/builder/callgraph/OnFlyCallGraph.java:437-445 | addCall keeps the counter equal to the number of distinct recorded calls, and keeps each call filed under its source. |
| Store.CallQueries | sootup.qilin/src/main/java/qilin/core/builder/callgraph/OnFlyCallGraph.java:471-516 | The recorded calls are exactly those containsCall accepts, and callCount is their number. callsFrom(src) holds exactly the recorded calls from src. callTargetsFrom(src) holds exactly the targets t for which some call from src to t is recorded. |
| Store.SizeIsEdgeCount | sootup.qilin/src/main/java/qilin/core/builder/callgraph/OnFlyCallGraph.java:421-423 | size equals the number of distinct edge values in the store. |
| Store.SourceMethodsExact | sootup.qilin/src/main/java/qilin/core/builder/callgraph/OnFlyCallGraph.java:260-263 | When the chains hold only live edges, sourceMethods lists a method exactly when some edge of the edge set has it as source. |
| Iterators.EdgesOutOfUnit | sootup.qilin/src/main/java/qilin/core/builder/callgraph/OnFlyCallGraph.java:266-283 | Building the iterator fails with a null-key error exactly for a null statement. Otherwise the iterator follows that statement. |
| Iterators.EdgesOutOfMethod | sootup.qilin/src/main/java/qilin/core/builder/callgraph/OnFlyCallGraph.java:307-324 | Building the iterator fails exactly for a null method. Otherwise the iterator follows that source method. |
| Iterators.EdgesInto | sootup.qilin/src/main/java/qilin/core/builder/callgraph/OnFlyCallGraph.java:351-368 | Building the iterator fails exactly for a null method. Otherwise the iterator follows that target method. |
| Iterators.Remaining | sootup.qilin/src/main/java/qilin/core/builder/callgraph/OnFlyCallGraph.java:286-299 | An iterator yields the longest prefix of its chain whose edges have its key and a non-INVALID kind. It stops at the first edge that fails this, or at the end of the chain. If every edge of the chain qualifies, it yields the whole chain. |
| Iterators.Collect | sootup.qilin/src/main/java/qilin/core/builder/callgraph/OnFlyCallGraph.java:286-299 | The hasNext/next loop returns exactly what the iterator yields. |
| Iterators.ChainOfFacts | sootup.qilin/src/main/java/qilin/core/builder/callgraph/OnFlyCallGraph.java:266-392 | The chain an iterator starts on holds only edges of its key, each once. |
| Iterators.IteratorComplete | sootup.qilin/src/main/java/qilin/core/builder/callgraph/OnFlyCallGraph.java:266-392 | With no INVALID edge threaded into a chain, each iterator yields its whole chain. That includes every edge of the edge set with the iterator's key, each once. |
| Iterators.IteratorExact | sootup.qilin/src/main/java/qilin/core/builder/callgraph/OnFlyCallGraph.java:266-392 | When the chains hold only live edges, an iterator yields an edge exactly when it is in the edge set with the iterator's key, and yields each once. |
| Iterators.FindEdge | sootup.qilin/src/main/java/qilin/core/builder/callgraph/OnFlyCallGraph.java:247-258 | findEdge answers the first edge, in iteration order over the call site, whose target is the callee, or null if there is none. |
| Iterators.FindEdgeExact | sootup.qilin/src/main/java/qilin/core/builder/callgraph/OnFlyCallGraph.java:247-258 | When the chains hold only live edges, findEdge finds something exactly when the edge set has an edge from the call site to the callee. What it finds is such an edge. |
| EdgeOps.AddEdge | sootup.qilin/src/main/java/qilin/core/builder/callgraph/OnFlyCallGraph.java:69-101 | addEdge refuses exactly an edge already present, and then changes nothing. Either way the edge set afterwards is the old one plus the edge. On success it records both endpoint methods and the call (the counter grows only for a new call), and appends the edge to the arena and the stream. |
| EdgeOps.AddEdgeSize | sootup.qilin/src/main/java/qilin/core/builder/callgraph/OnFlyCallGraph.java:69-101 | size grows by one exactly when addEdge answers true. |
| EdgeOps.AddEdgeValid | sootup.qilin/src/main/java/qilin/core/builder/callgraph/OnFlyCallGraph.java:69-101 | addEdge keeps every store invariant. |
| EdgeOps.AddEdgeThreads | sootup.qilin/src/main/java/qilin/core/builder/callgraph/OnFlyCallGraph.java:80-99 | On success, each of the three indices gets a new entry only for a key it lacked, and that entry is just the new edge. Under a key with a head, the new edge goes right after the head. Other keys are untouched. |
| EdgeOps.AddTidy | sootup.qilin/src/main/java/qilin/core/builder/callgraph/OnFlyCallGraph.java:69-101 | addEdge keeps the chains holding only live edges. |
| EdgeOps.AddNoInvalid | sootup.qilin/src/main/java/qilin/core/builder/callgraph/OnFlyCallGraph.java:69-101 | Adding an edge whose kind is not INVALID threads no INVALID edge into any chain. |
| EdgeOps.RemoveEdgeWith | sootup.qilin/src/main/java/qilin/core/builder/callgraph/OnFlyCallGraph.java:168-208 | removeEdge(e, flag) answers true exactly when an equal edge was present; otherwise nothing changes. The edge set loses that value, and the method set, calls and counter stay. With flag set, the stream tombstones the removed edge. On success, the edge object is no longer in any of its three chains. |
| EdgeOps.RemoveEdge | sootup.qilin/src/main/java/qilin/core/builder/callgraph/OnFlyCallGraph.java:155-157 | removeEdge(e) answers whether an equal edge was present and removes that value from the edge set. |
| EdgeOps.CallsUnderLiveSource | sootup.qilin/src/main/java/qilin/core/builder/callgraph/OnFlyCallGraph.java:174-175 | The assertion in removeEdge cannot fail: a live edge's source always has recorded calls. |
| EdgeOps.RemoveEdgeRepoints | sootup.qilin/src/main/java/qilin/core/builder/callgraph/OnFlyCallGraph.java:179-199 | For each index whose head the removed edge was, the key stays exactly when the chain had more, and the next edge becomes the head. If the removed edge was not the head, the head stays. |
| EdgeOps.RemoveConsistent | sootup.qilin/src/main/java/qilin/core/builder/callgraph/OnFlyCallGraph.java:168-208 | removeEdge(e, flag) keeps every invariant except the stream's, even with flag false. |
| EdgeOps.RemoveEdgeValid | sootup.qilin/src/main/java/qilin/core/builder/callgraph/OnFlyCallGraph.java:155-208 | removeEdge(e) keeps every store invariant. |
| EdgeOps.RemoveTidy | sootup.qilin/src/main/java/qilin/core/builder/callgraph/OnFlyCallGraph.java:168-208 | Removing a live edge, or one with no equal edge present, keeps the chains holding only live edges. |
| EdgeOps.RemoveStaleLeavesThreaded | sootup.qilin/src/main/java/qilin/core/builder/callgraph/OnFlyCallGraph.java:168-199 | removeEdge given an object outside the edge set that equals a live edge: the live edge leaves the edge set but stays threaded into all three of its chains, so the chains no longer hold only live edges. |
| EdgeOps.RemoveNoInvalid | sootup.qilin/src/main/java/qilin/core/builder/callgraph/OnFlyCallGraph.java:178-199 | removeEdge only unthreads, so afterwards no INVALID edge is threaded into any chain. The iterators' stop at an INVALID edge then fires only at the sentinel. |
| EdgeOps.RemoveThenAdd | sootup.qilin/src/main/java/qilin/core/builder/callgraph/OnFlyCallGraph.java:69-208 | Removing a live edge and adding it back both succeed. Afterwards the edge set, the method set, every containsCall answer and the call count are as before. |
| Listeners.ListenerSeesEdgeSet | sootup.qilin/src/main/java/qilin/core/builder/callgraph/OnFlyCallGraph.java:394-400 | A listener yields exactly the edges of the edge set. |
| Listeners.NewListenerSeesNothing | sootup.qilin/src/main/java/qilin/core/builder/callgraph/OnFlyCallGraph.java:402-408 | A new listener has nothing pending. |
| Listeners.AddEdgeNotifies | sootup.qilin/src/main/java/qilin/core/builder/callgraph/OnFlyCallGraph.java:78 | Every reader is told about an accepted edge after what it already had pending, and about nothing when addEdge refuses. |
| Listeners.NewListenerSeesAdded | sootup.qilin/src/main/java/qilin/core/builder/callgraph/OnFlyCallGraph.java:402-408 | A new listener taken before addEdge yields exactly the added edge, or nothing when addEdge refuses. |
| Listeners.RemoveEdgeHides | sootup.qilin/src/main/java/qilin/core/builder/callgraph/OnFlyCallGraph.java:201-205 | After a successful removeEdge(e, true), every reader has lost exactly the removed edge from what it has pending. With flag false, the readers are not told. |
| BulkOps.RemoveEach | sootup.qilin/src/main/java/qilin/core/builder/callgraph/OnFlyCallGraph.java:221-223 | Applying removeEdge(e, false) to each edge in turn removes exactly their values from the edge set. It leaves the stream, methods, calls and counter alone. |
| BulkOps.RemoveAllEdgesOutOf | sootup.qilin/src/main/java/qilin/core/builder/callgraph/OnFlyCallGraph.java:109-125 | removeAllEdgesOutOf answers true exactly when the stream holds an edge from the call site; otherwise nothing changes. It only ever shrinks the edge set, and leaves methods, calls and counter alone. |
| BulkOps.RemoveAllEdgesOutOfEffect | sootup.qilin/src/main/java/qilin/core/builder/callgraph/OnFlyCallGraph.java:109-125 | On a store whose stream matches its edge set: true exactly when an edge from the call site existed, and afterwards the edge set is the old one without the edges from that site. |
| BulkOps.RemoveAllEdgesOutOfValid | sootup.qilin/src/main/java/qilin/core/builder/callgraph/OnFlyCallGraph.java:109-125 | removeAllEdgesOutOf keeps every store invariant. |
| BulkOps.RemoveAllEdgesOutOfTidy | sootup.qilin/src/main/java/qilin/core/builder/callgraph/OnFlyCallGraph.java:109-125 | removeAllEdgesOutOf keeps the chains holding only live edges. |
| BulkOps.RemoveEdges | sootup.qilin/src/main/java/qilin/core/builder/callgraph/OnFlyCallGraph.java:217-226 | As written: true exactly when one of the given edges was present, and the edge set loses exactly their values. The three indices are left as they were (see Findings). |
| BulkOps.RemoveEdgesValid | sootup.qilin/src/main/java/qilin/core/builder/callgraph/OnFlyCallGraph.java:217-226 | removeEdges as written keeps every store invariant, chain well-formedness included. It does not keep the chains holding only live edges. |
| BulkOps.RemoveEdgesFixed | sootup.qilin/src/main/java/qilin/core/builder/callgraph/OnFlyCallGraph.java:217-226 | Corrected removeEdges: same answer and same edge set as written. Each live edge of the list is also unthreaded from its three chains, unless a different object of equal value comes before it in the list. |
| BulkOps.RemoveEdgesFixedValid | sootup.qilin/src/main/java/qilin/core/builder/callgraph/OnFlyCallGraph.java:217-226 | The corrected removeEdges keeps every store invariant. |
| BulkOps.RemoveEdgesFixedTidy | sootup.qilin/src/main/java/qilin/core/builder/callgraph/OnFlyCallGraph.java:217-226 | For a list whose objects are each live or have no equal edge present, the corrected removeEdges keeps the chains holding only live edges. |
| BulkOps.RemoveEdgesFixedStaleUntidy | sootup.qilin/src/main/java/qilin/core/builder/callgraph/OnFlyCallGraph.java:217-226 | Given a stale object equal to a live edge, the corrected removeEdges takes that edge out of the edge set and leaves the chains untidy, so the live-or-gone condition above cannot be dropped. |
| BulkOps.RemoveEachUnthreads | sootup.qilin/src/main/java/qilin/core/builder/callgraph/OnFlyCallGraph.java:221-223 | Calling removeEdge(e, false) on each edge in turn unthreads every live edge of the list that no different object of equal value precedes. |
| BulkOps.SwapEdgesOutOf | sootup.qilin/src/main/java/qilin/core/builder/callgraph/OnFlyCallGraph.java:137-149 | swapEdgesOutOf answers true exactly when the iterator over the old statement yields something; otherwise nothing changes. Edge objects are only ever appended. The walk is over the chain as it was at the start, for any two statements. |
| BulkOps.SwapEdgesOutOfValid | sootup.qilin/src/main/java/qilin/core/builder/callgraph/OnFlyCallGraph.java:137-149 | swapEdgesOutOf keeps every store invariant. |
| BulkOps.SwapEachEdgeSet | sootup.qilin/src/main/java/qilin/core/builder/callgraph/OnFlyCallGraph.java:138-147 | Swapping edges at the old statement, one at a time, replaces their values in the edge set with copies moved to the new statement. This holds even when a moved copy equals an edge still to be swapped. |
| BulkOps.SwapEdgesOutOfEffect | sootup.qilin/src/main/java/qilin/core/builder/callgraph/OnFlyCallGraph.java:137-149 | When the chains hold only live edges and none is INVALID: true exactly when an edge from the old statement existed. Afterwards the edge set is the edges elsewhere plus a moved copy of each edge from the old statement. This holds for any two statements, the same one included. |
| BulkOps.SwapInPlaceKeepsEdges | sootup.qilin/src/main/java/qilin/core/builder/callgraph/OnFlyCallGraph.java:128-149 | Swapping the edges of a statement onto that same statement, with the kind they already have, leaves the edge set as it was, as the method's comment promises for a replacement that changes nothing. |
| Findings.RemoveEdgesLeavesStaleChain | sootup.qilin/src/main/java/qilin/core/builder/callgraph/OnFlyCallGraph.java:217-226 | On a one-edge store, removeEdges as written answers true and leaves size 0. Yet the iterator over the edge's call site still yields the removed edge, and findEdge still finds it. |
| Findings.RemoveEdgesFixedClearsChain | sootup.qilin/src/main/java/qilin/core/builder/callgraph/OnFlyCallGraph.java:217-226 | On the same store, the corrected removeEdges leaves the iterator empty and findEdge finding nothing. |
| Findings.SwapInPlaceNeverEnds | sootup.qilin/src/main/java/qilin/core/builder/callgraph/OnFlyCallGraph.java:138-147 | swapEdgesOutOf(u, u) as written, one loop pass from the head of a chain of two live edges: hasNext is true again, at the new head of a chain in the same state. So the loop never ends. |
| Findings.SwapInPlaceCounterexample | sootup.qilin/src/main/java/qilin/core/builder/callgraph/OnFlyCallGraph.java:138-147 | A store with two edges at one call site is in that state, and the walk starts at its head. |
| Findings.IsEntryMethodAlwaysTrue | sootup.qilin/src/main/java/qilin/core/builder/callgraph/OnFlyCallGraph.java:234-236 | isEntryMethod as written answers true for every store and every method. |
| Findings.IsEntryMethodCounterexample | sootup.qilin/src/main/java/qilin/core/builder/callgraph/OnFlyCallGraph.java:234-236 | isEntryMethod as written says a method is an entry method even though a live edge targets it. |
| Findings.IsEntryMethodExact | sootup.qilin/src/main/java/qilin/core/builder/callgraph/OnFlyCallGraph.java:228-236 | Corrected isEntryMethod: when the chains hold only live edges, it is true exactly when no edge of the edge set targets the method. |

## Left out

- Concurrency: the Java store is not thread-safe and the model is sequential.
- `toString` and `iterator()`: they only print or expose the edge set.
- The iterators' `remove`: it throws `UnsupportedOperationException`. No caller in the core uses it.
- `getEntryMethods`, `copy`, `diff`, `exportAsDot`, `callsTo` and `callSourcesTo`: the source throws or returns an empty list. They are modelled as such, with no property to state.
- Edge.java, ChunkedQueue, QueueReader and ContextMethod are not part of this model. Their behaviour is taken as the core uses it:
  - `Edge.remove` unlinks the edge from its three rings. What it does to the unlinked edge's own fields is not modelled: arena entries never change. `NoInvalidEdges` speaks only of threaded edges, so it does not depend on that.
  - A reader removes by edge equality over the whole stream.
  - Methods are compared by signature.
- ContextMethod identity: the head checks at OnFlyCallGraph.java:189 and :197 compare methods in context with `==`, while the maps (:87, :94, :188) and the iterators (:331, :375) use `equals`. The model compares them by value throughout, which assumes one ContextMethod object per method and context. With two equal but distinct objects, removing a chain head could drop the index entry while other edges of that method remain threaded.
- The kind of `new Edge(src, in, tgt)` is a parameter of `swapEdgesOutOf`. The Edge constructor derives it from the new statement, and that code is not part of this model.
- BulkOps.RemoveAllEdgesOutOf: assumes that `e.remove()` at OnFlyCallGraph.java:115 leaves the edge equal to what it was, so that `removeEdge(e, false)` at :116 still finds it in the edge set. If unlinking changed equality, the Java method would remove nothing from the edge set. Edge.java is not part of this model.
- BulkOps.RemoveEdgesFixedTidy: promises `Tidy` only for a list whose objects are each live or have no equal edge present. A stale object whose value is live as another object takes that edge out of the edge set but leaves it threaded, so `Tidy` fails (`BulkOps.RemoveEdgesFixedStaleUntidy`).
- BulkOps.RemoveEdgesFixed: promises unthreading only for live edges that no different object of equal value precedes in the list. A stale object of equal value takes the value out of the edge set without unthreading the live edge, as `removeEdge` does.
- BulkOps.SwapEdgesOutOf: with `out == in`, the source loop does not end in some cases, for example with two live edges at `out` of the kind being given (see Findings). It does end when a moved copy is refused as already present. The model gives the intended result of walking the starting chain instead. It also requires that the walk meets only live edges: re-linking around a stale chain head cannot be expressed on the chain sequences.
- BulkOps.SwapEdgesOutOfValid: it proves every invariant, but not that the chains stay holding only live edges. That proof did not fit the solver's resource budget.
- EdgeOps.RemoveStaleLeavesThreaded: a second `Edge.remove` (OnFlyCallGraph.java:178) on an object that is already unlinked is modelled as doing nothing. Under a ring unlink it would re-join the object's old neighbours and could cut a live edge out of its chain. Edge.java is not part of this model.
- EdgeOps.AddEdge: the edge given is always a newly built object, and it takes a new arena slot. Java's `addEdge` can also be given an object that is still threaded, for example after `removeEdges` as written. Then `insertAfterByUnit` (:85) can splice the object after itself. That case is not modelled.
- Integer widths: `callCnt` (:441) and `size()` are Java `int`s. Their overflow past 2^31 - 1 is not modelled; the model counts with unbounded integers.
- Null arguments: `findEdge(null, ...)` returns null (:248-250), and `swapEdgesOutOf(null, in)` throws from `edgesOutOf`. The model's `FindEdge` and `SwapEdgesOutOf` take a statement that is never null; only the three iterator constructors model the null case.
- Store.SourceMethodsExact: `sourceMethods()` yields its keys in the map's insertion order (:260-263). The model speaks of the set of keys, not their order.
- EdgeOps.RemoveEdgeWith: takes the edge as an object already in the arena. Removing a freshly built equal edge that was never added (a stale reference) is not modelled as a separate case.
- Chain.Link: the head of a chain is its earliest edge only until that head is removed. The next head is then the newest survivor, because the tail is newest first. The model states the splice, not an order by age.
- removeEdge leaves the recorded call in place, as the code does. The call to `tgtSigs.remove` at OnFlyCallGraph.java:176 suggests the call was meant to go. No corrected version is modelled, because nothing says which call to drop when several edges share it.

## Findings

| source | as written | input that shows it | evidently intended | confidence | as-written member | corrected member |
|---|---|---|---|---|---|---|
| sootup.qilin/src/main/java/qilin/core/builder/callgraph/OnFlyCallGraph.java:217-226 | `removeEdges` first removes all given edges from the edge set, then calls `removeEdge(e, false)` for each. Each call finds its edge gone and returns at once, so no edge is unlinked and no head is re-pointed. The removed object also stays a chain head, so a later `addEdge` of that same object would splice it after itself (:85). The model does not cover that re-add (see Left out, EdgeOps.AddEdge). | A store holding one edge `main -> callee` at call site 1; `removeEdges([that edge])` | Each edge is unlinked from its three chains, as `removeEdge` does. Iterators and `findEdge` then no longer return it. | medium, not executed | Findings.RemoveEdgesLeavesStaleChain | BulkOps.RemoveEdgesFixed |
| sootup.qilin/src/main/java/qilin/core/builder/callgraph/OnFlyCallGraph.java:234-236 | `isEntryMethod` asks the target index, which is keyed by method in context, whether it contains a plain method. It never does, so the answer is always true. | The same one-edge store; `isEntryMethod(callee)` answers true although an edge targets `callee` | True exactly when no edge has the method as target, in any context. | medium, not executed | Findings.IsEntryMethodCounterexample | Findings.IsEntryMethodExact |
| sootup.qilin/src/main/java/qilin/core/builder/callgraph/OnFlyCallGraph.java:138-147 | `swapEdgesOutOf(out, in)` walks the live chain of `out`. Each pass removes the current edge and adds a copy at `in`. With `out == in` and two live edges of the kind being given, removing the head makes the next edge the head, and that is where the iterator stands. The copy is spliced in right after it, so the iterator meets the copy next and the walk never reaches the end. | A store with two edges `main -> callee` and `main -> other` at call site 1; `swapEdgesOutOf(site 1, site 1)` | Each edge at `out` is swapped once. With `out == in` and an unchanged kind, the edge set is left as it was. | medium, not executed | Findings.SwapInPlaceNeverEnds | BulkOps.SwapEdgesOutOf |

=== FILE: bulk.dfy ===
/** The bulk operations of the store: removeAllEdgesOutOf, removeEdges and
    swapEdgesOutOf, built from per-edge removal and addition. */
module BulkOps {
  import opened Types
  import Chain
  import Queue
  import opened Store
  import opened Iterators
  import opened EdgeOps
  import opened Listeners

  /** The values of the edge objects `xs`. */
  function Values(g: Graph, xs: seq<EdgeRef>): set<Edge> {
    set x | x in xs && x < |g.objs| :: g.objs[x]
  }

  predicate InArena(g: Graph, xs: seq<EdgeRef>) {
    forall x :: x in xs ==> x < |g.objs|
  }

  /** removeEdge(e, false) for each object of `xs` in turn: the stream is left alone. */
  function RemoveEach(g: Graph, xs: seq<EdgeRef>): (r: Graph)
    requires InArena(g, xs)
    ensures r.objs == g.objs && r.stream == g.stream
    ensures r.methods == g.methods && r.calls == g.calls && r.callCnt == g.callCnt
    ensures r.edges == g.edges - RefsWithValue(g, Values(g, xs))
    ensures EdgeSet(r) == EdgeSet(g) - Values(g, xs)
    decreases |xs|
  {
    if xs == [] then
      assert RefsWithValue(g, {}) == {};
      g
    else
      assert xs[0] in xs && forall x :: x in xs[1..] ==> x in xs;
      var g1 := RemoveEdgeWith(g, xs[0], false).graph;
      var r := RemoveEach(g1, xs[1..]);
      assert Values(g, xs) == {g.objs[xs[0]]} + Values(g, xs[1..]);
      assert RefsWithValue(g, Values(g, xs)) == RefsWithValue(g, {g.objs[xs[0]]}) + RefsWithValue(g, Values(g, xs[1..]));
      r
  }

  lemma {:induction false} RemoveEachConsistent(g: Graph, xs: seq<EdgeRef>)
    requires Consistent(g) && InArena(g, xs)
    ensures Consistent(RemoveEach(g, xs))
    decreases |xs|
  {
    if xs != [] {
      assert xs[0] in xs && forall x :: x in xs[1..] ==> x in xs;
      RemoveConsistent(g, xs[0], false);
      RemoveEachConsistent(RemoveEdgeWith(g, xs[0], false).graph, xs[1..]);
    }
  }

  /** Each object is in the edge set, or no edge equal to it is. */
  predicate LiveOrGone(g: Graph, xs: seq<EdgeRef>) {
    forall x :: x in xs ==> x < |g.objs| && (x in g.edges || g.objs[x] !in EdgeSet(g))
  }

  lemma {:induction false} RemoveEachTidy(g: Graph, xs: seq<EdgeRef>)
    requires Consistent(g) && Tidy(g) && LiveOrGone(g, xs)
    ensures Tidy(RemoveEach(g, xs))
    decreases |xs|
  {
    if xs != [] {
      assert xs[0] in xs;
      var g1 := RemoveEdgeWith(g, xs[0], false).graph;
      RemoveTidy(g, xs[0], false);
      RemoveConsistent(g, xs[0], false);
      assert LiveOrGone(g, xs[1..]) by { assert forall x :: x in xs[1..] ==> x in xs; }
      LiveOrGoneStep(g, xs[0], false, xs[1..]);
      RemoveEachTidy(g1, xs[1..]);
    }
  }

  lemma LiveOrGoneStep(g: Graph, x0: EdgeRef, flag: bool, xs: seq<EdgeRef>)
    requires x0 < |g.objs| && LiveOrGone(g, xs)
    ensures LiveOrGone(RemoveEdgeWith(g, x0, flag).graph, xs)
  {
    var g1 := RemoveEdgeWith(g, x0, flag).graph;
    forall x | x in xs ensures x < |g1.objs| && (x in g1.edges || g1.objs[x] !in EdgeSet(g1)) {
      if x in g.edges && g.objs[x] != g.objs[x0] {
        assert x !in RefsWithValue(g, {g.objs[x0]});
      }
    }
  }

  /** When no object of `xs` has its value in the edge set, every removeEdge finds
      nothing to do and the store is unchanged. */
  lemma {:induction false} RemoveEachNothing(g: Graph, xs: seq<EdgeRef>)
    requires InArena(g, xs)
    requires forall x :: x in xs ==> g.objs[x] !in EdgeSet(g)
    ensures RemoveEach(g, xs) == g
    decreases |xs|
  {
    if xs != [] {
      assert xs[0] in xs && forall x :: x in xs[1..] ==> x in xs;
      assert !RemoveEdgeWith(g, xs[0], false).changed;
      RemoveEachNothing(g, xs[1..]);
    }
  }

  // ---------------------------------------------------------------------------
  // removeAllEdgesOutOf

  /** The objects among `rs` whose statement is `u`, in order. */
  function OutOf(g: Graph, rs: seq<EdgeRef>, u: Stmt): (r: seq<EdgeRef>)
    ensures forall x :: x in r <==> x in rs && x < |g.objs| && g.objs[x].stmt == u
    ensures InArena(g, r)
  {
    if rs == [] then []
    else (if rs[0] < |g.objs| && g.objs[rs[0]].stmt == u then [rs[0]] else []) + OutOf(g, rs[1..], u)
  }

  /** removeAllEdgesOutOf(u): drains a listener, and for every edge of the stream with
      statement `u` unlinks it (Edge.remove) and removes it without telling the
      stream; at the end, if there was any, the stream drops them all. Answers
      whether any edge of the stream had statement `u`. */
  function RemoveAllEdgesOutOf(g: Graph, u: Stmt): (r: Update)
    ensures r.changed <==> exists x :: x in Queue.Pending(g.stream, 0) && x < |g.objs| && g.objs[x].stmt == u
    ensures !r.changed ==> r.graph == g
    ensures EdgeSet(r.graph) <= EdgeSet(g)
    ensures r.graph.methods == g.methods && r.graph.calls == g.calls && r.graph.callCnt == g.callCnt
  {
    var hits := OutOf(g, Queue.Pending(g.stream, Listener(g).pos), u);
    if hits == [] then
      Update(false, g)
    else
      assert hits[0] in hits;
      var g1 := RemoveEach(g, hits);
      Update(true, g1.(stream := Queue.RemoveAll(g1.stream, RefsWithValue(g, Values(g, hits)))))
  }

  /** removeAllEdgesOutOf answers whether the edge set had an edge from `u`, and
      afterwards the edge set is the old one without the edges from `u`. */
  lemma RemoveAllEdgesOutOfEffect(g: Graph, u: Stmt)
    requires StreamCovers(g) && StreamExact(g)
    ensures RemoveAllEdgesOutOf(g, u).changed <==> exists e :: e in EdgeSet(g) && e.stmt == u
    ensures forall e :: e in EdgeSet(RemoveAllEdgesOutOf(g, u).graph) <==> e in EdgeSet(g) && e.stmt != u
  {
    var hits := OutOf(g, Queue.Pending(g.stream, 0), u);
    HitValues(g, u);
    if hits != [] {
      var g1 := RemoveEach(g, hits);
      var r := g1.(stream := Queue.RemoveAll(g1.stream, RefsWithValue(g, Values(g, hits))));
      assert RemoveAllEdgesOutOf(g, u).graph == r;
      assert EdgeSet(r) == EdgeSet(g1);
    } else {
      assert forall e :: e in EdgeSet(g) ==> e.stmt != u;
    }
  }

  /** The edges a listener finds at `u` are exactly the edges of the edge set at `u`. */
  lemma HitValues(g: Graph, u: Stmt)
    requires StreamCovers(g) && StreamExact(g)
    ensures var hits := OutOf(g, Queue.Pending(g.stream, 0), u);
            && Values(g, hits) == (set e | e in EdgeSet(g) && e.stmt == u)
            && (hits == [] <==> forall e :: e in EdgeSet(g) ==> e.stmt != u)
  {
    ListenerSeesEdgeSet(g);
    var hits := OutOf(g, Queue.Pending(g.stream, 0), u);
    forall e | e in EdgeSet(g) && e.stmt == u ensures e in Values(g, hits) {
      var y :| y in g.edges && y < |g.objs| && g.objs[y] == e;
      assert y in hits;
    }
    if hits != [] {
      assert hits[0] in hits;
      assert g.objs[hits[0]] in EdgeSet(g);
    }
  }

  /** removeAllEdgesOutOf keeps every invariant of the store. */
  lemma RemoveAllEdgesOutOfValid(g: Graph, u: Stmt)
    requires Valid(g)
    ensures Valid(RemoveAllEdgesOutOf(g, u).graph)
  {
    var hits := OutOf(g, Queue.Pending(g.stream, 0), u);
    if hits != [] {
      RemoveEachConsistent(g, hits);
      StreamRetired(g, RemoveEach(g, hits), Values(g, hits));
    }
  }

  /** Telling the stream about the edges removed since the last valid state restores
      the stream invariants. */
  lemma StreamRetired(g: Graph, g1: Graph, vals: set<Edge>)
    requires StreamCovers(g) && StreamExact(g) && StreamCovers(g1)
    requires g1.objs == g.objs && g1.stream == g.stream && g1.edges == g.edges - RefsWithValue(g, vals)
    ensures var r := g1.(stream := Queue.RemoveAll(g1.stream, RefsWithValue(g, vals)));
            StreamCovers(r) && StreamExact(r)
  {
    var drop := RefsWithValue(g, vals);
    var r := g1.(stream := Queue.RemoveAll(g1.stream, drop));
    forall y | y in r.edges ensures y < |r.objs| && r.stream[y] == Some(y) {
      assert y !in drop;
    }
    forall i | 0 <= i < |r.stream| && r.stream[i] == Some(i) ensures i in r.edges {
      assert g.stream[i] == Some(i) && i !in drop;
    }
  }

  /** With tidy chains, removeAllEdgesOutOf leaves them tidy, so no iterator or
      findEdge can reach a removed edge. */
  lemma RemoveAllEdgesOutOfTidy(g: Graph, u: Stmt)
    requires Valid(g) && Tidy(g)
    ensures Tidy(RemoveAllEdgesOutOf(g, u).graph)
  {
    var hits := OutOf(g, Queue.Pending(g.stream, 0), u);
    if hits != [] {
      HitsLive(g, u);
      RemoveEachTidy(g, hits);
      var g1 := RemoveEach(g, hits);
      assert RemoveAllEdgesOutOf(g, u).graph == g1.(stream := Queue.RemoveAll(g1.stream, RefsWithValue(g, Values(g, hits))));
    }
  }

  /** Everything a listener drained from the start returns is in the edge set. */
  lemma HitsLive(g: Graph, u: Stmt)
    requires StreamCovers(g) && StreamExact(g)
    ensures LiveOrGone(g, OutOf(g, Queue.Pending(g.stream, 0), u))
  {
    ListenerSeesEdgeSet(g);
  }

  // ---------------------------------------------------------------------------
  // removeEdges

  /** removeEdges(xs) as written: the edge set first drops every edge equal to one of
      `xs`; if that changed nothing the answer is false. Otherwise each removeEdge(x,
      false) that follows finds its edge already gone and returns at once, so no
      chain head is re-pointed and no object is unlinked; the stream then drops the
      removed edges. */
  function RemoveEdges(g: Graph, xs: seq<EdgeRef>): (r: Update)
    requires InArena(g, xs)
    ensures r.changed <==> Values(g, xs) * EdgeSet(g) != {}
    ensures !r.changed ==> r.graph == g
    ensures EdgeSet(r.graph) == EdgeSet(g) - Values(g, xs)
    ensures r.graph.byUnit == g.byUnit && r.graph.bySrc == g.bySrc && r.graph.byTgt == g.byTgt
    ensures r.graph.methods == g.methods && r.graph.calls == g.calls && r.graph.callCnt == g.callCnt
  {
    var vals := Values(g, xs);
    var held := g.edges * RefsWithValue(g, vals);
    RemovedValues(g, vals);
    if held == {} then
      Update(false, g)
    else
      var g1 := g.(edges := g.edges - held);
      assert g1.edges == g.edges - RefsWithValue(g, vals);
      RemoveEachNothing(g1, xs);
      var g2 := RemoveEach(g1, xs);
      Update(true, g2.(stream := Queue.RemoveAll(g2.stream, RefsWithValue(g, vals))))
  }

  /** Dropping every object whose value is in `vals` removes those values from the
      edge set, and does something exactly when one of them was there. */
  lemma RemovedValues(g: Graph, vals: set<Edge>)
    ensures EdgeSet(g.(edges := g.edges - RefsWithValue(g, vals))) == EdgeSet(g) - vals
    ensures g.edges * RefsWithValue(g, vals) == {} <==> vals * EdgeSet(g) == {}
    ensures vals * EdgeSet(g) == {} ==> EdgeSet(g) - vals == EdgeSet(g)
  {
    var r := g.(edges := g.edges - RefsWithValue(g, vals));
    forall w | w in EdgeSet(g) - vals ensures w in EdgeSet(r) {
      var y :| y in g.edges && y < |g.objs| && g.objs[y] == w;
      assert y in r.edges;
    }
    if w :| w in vals * EdgeSet(g) {
      var y :| y in g.edges && y < |g.objs| && g.objs[y] == w;
      assert y in g.edges * RefsWithValue(g, vals);
    }
    if y :| y in g.edges * RefsWithValue(g, vals) {
      assert g.objs[y] in vals * EdgeSet(g);
    }
    if vals * EdgeSet(g) == {} {
      forall w | w in EdgeSet(g) ensures w !in vals {
        assert w !in vals * EdgeSet(g);
      }
    }
  }

  /** removeEdges keeps every invariant the chains do not carry. */
  lemma RemoveEdgesValid(g: Graph, xs: seq<EdgeRef>)
    requires Valid(g) && InArena(g, xs)
    ensures Valid(RemoveEdges(g, xs).graph)
  {
    var vals := Values(g, xs);
    var drop := RefsWithValue(g, vals);
    if g.edges * drop != {} {
      var g1 := g.(edges := g.edges - drop);
      RemoveEdgesShape(g, xs);
      ShrunkConsistent(g, g1);
      StreamRetired(g, g1, vals);
    }
  }

  /** What removeEdges leaves when it finds something: the edge set without the
      removed edges, the stream without them, everything else as it was. */
  lemma RemoveEdgesShape(g: Graph, xs: seq<EdgeRef>)
    requires InArena(g, xs) && g.edges * RefsWithValue(g, Values(g, xs)) != {}
    ensures var drop := RefsWithValue(g, Values(g, xs));
            RemoveEdges(g, xs).graph == g.(edges := g.edges - drop, stream := Queue.RemoveAll(g.stream, drop))
  {
    var drop := RefsWithValue(g, Values(g, xs));
    var g1 := g.(edges := g.edges - drop);
    RemovedValues(g, Values(g, xs));
    RemoveEachNothing(g1, xs);
  }

  /** Removing objects from the edge set, and nothing else, keeps the store
      consistent: the chains may then hold removed objects, which Consistent allows. */
  lemma ShrunkConsistent(g: Graph, g1: Graph)
    requires Consistent(g)
    requires g1 == g.(edges := g1.edges) && g1.edges <= g.edges
    ensures Consistent(g1)
  {
    assert EdgeSet(g1) <= EdgeSet(g);
  }

  /** removeEdges with each removal doing its work: every object of `xs` is
      removed through removeEdge(x, false), which unlinks it and re-points the
      heads, and the stream then drops the removed edges. */
  function RemoveEdgesFixed(g: Graph, xs: seq<EdgeRef>): (r: Update)
    requires InArena(g, xs)
    ensures r.changed <==> Values(g, xs) * EdgeSet(g) != {}
    ensures !r.changed ==> r.graph == g
    ensures EdgeSet(r.graph) == EdgeSet(g) - Values(g, xs)
    ensures r.graph.methods == g.methods && r.graph.calls == g.calls && r.graph.callCnt == g.callCnt
    ensures forall i :: 0 <= i < |xs| && xs[i] < |g.objs| && xs[i] in g.edges && FirstOfValue(g, xs, i) ==>
              Unthreaded(r.graph, xs[i], g.objs[xs[i]])
  {
    var vals := Values(g, xs);
    RemovedValues(g, vals);
    if g.edges * RefsWithValue(g, vals) == {} then
      assert forall i :: 0 <= i < |xs| ==> xs[i] !in g.edges by {
        forall i | 0 <= i < |xs| ensures xs[i] in RefsWithValue(g, vals) {
          assert xs[i] in xs;
        }
      }
      Update(false, g)
    else
      var g1 := RemoveEach(g, xs);
      RemoveEachUnthreads(g, xs);
      Update(true, g1.(stream := Queue.RemoveAll(g1.stream, RefsWithValue(g, vals))))
  }

  /** Object `x`, of value `v`, is threaded into none of the three chains. */
  predicate Unthreaded(g: Graph, x: EdgeRef, v: Edge) {
    !Chain.InChain(g.byUnit, v.stmt, x) && !Chain.InChain(g.bySrc, v.src, x) && !Chain.InChain(g.byTgt, v.tgt, x)
  }

  /** No object before position `i` of `xs` is a different object of the same value
      (one that would take the value out of the edge set without unthreading xs[i]). */
  predicate FirstOfValue(g: Graph, xs: seq<EdgeRef>, i: int)
    requires InArena(g, xs) && 0 <= i < |xs|
  {
    assert xs[i] in xs;
    forall j :: 0 <= j < i ==> xs[j] in xs && (g.objs[xs[j]] == g.objs[xs[i]] ==> xs[j] == xs[i])
  }

  /** Removing each object in turn unthreads every live object of `xs` that no
      different object of equal value precedes. */
  lemma {:induction false} RemoveEachUnthreads(g: Graph, xs: seq<EdgeRef>)
    requires InArena(g, xs)
    ensures forall i :: 0 <= i < |xs| && xs[i] < |g.objs| && xs[i] in g.edges && FirstOfValue(g, xs, i) ==>
              Unthreaded(RemoveEach(g, xs), xs[i], g.objs[xs[i]])
    decreases |xs|
  {
    if xs != [] {
      assert xs[0] in xs && forall x :: x in xs[1..] ==> x in xs;
      var g1 := RemoveEdgeWith(g, xs[0], false).graph;
      var v0 := g.objs[xs[0]];
      assert RemoveEach(g, xs) == RemoveEach(g1, xs[1..]);
      RemoveEachUnthreads(g1, xs[1..]);
      forall i | 0 <= i < |xs| && xs[i] < |g.objs| && xs[i] in g.edges && FirstOfValue(g, xs, i)
        ensures Unthreaded(RemoveEach(g, xs), xs[i], g.objs[xs[i]])
      {
        if xs[i] == xs[0] {
          assert v0 in EdgeSet(g);
          StaysUnthreaded(g1, xs[1..], xs[0], v0);
        } else {
          assert i > 0 && g.objs[xs[i]] != v0;
          assert xs[i] == xs[1..][i - 1] && xs[i] in g1.edges;
          assert FirstOfValue(g1, xs[1..], i - 1) by {
            forall j | 0 <= j < i - 1
              ensures xs[1..][j] < |g1.objs| && (g1.objs[xs[1..][j]] == g1.objs[xs[1..][i - 1]] ==> xs[1..][j] == xs[1..][i - 1])
            {
              assert xs[1..][j] == xs[j + 1];
              assert xs[j + 1] in xs;
            }
          }
        }
      }
    }
  }

  /** Removals never thread an object back in. */
  lemma {:induction false} StaysUnthreaded(g: Graph, xs: seq<EdgeRef>, x: EdgeRef, v: Edge)
    requires InArena(g, xs) && Unthreaded(g, x, v)
    ensures Unthreaded(RemoveEach(g, xs), x, v)
    decreases |xs|
  {
    if xs != [] {
      assert xs[0] in xs && forall y :: y in xs[1..] ==> y in xs;
      var g1 := RemoveEdgeWith(g, xs[0], false).graph;
      if RemoveEdgeWith(g, xs[0], false).changed {
        RemovedFields(g, xs[0], false);
      }
      StaysUnthreaded(g1, xs[1..], x, v);
    }
  }

  lemma RemoveEdgesFixedValid(g: Graph, xs: seq<EdgeRef>)
    requires Valid(g) && InArena(g, xs)
    ensures Valid(RemoveEdgesFixed(g, xs).graph)
  {
    if RemoveEdgesFixed(g, xs).changed {
      RemoveEachConsistent(g, xs);
      StreamRetired(g, RemoveEach(g, xs), Values(g, xs));
    }
  }

  /** The corrected removeEdges keeps the chains tidy, given objects that are each
      in the edge set or have no equal edge there. */
  lemma RemoveEdgesFixedTidy(g: Graph, xs: seq<EdgeRef>)
    requires Consistent(g) && Tidy(g) && LiveOrGone(g, xs)
    ensures Tidy(RemoveEdgesFixed(g, xs).graph)
  {
    var vals := Values(g, xs);
    if g.edges * RefsWithValue(g, vals) != {} {
      RemoveEachTidyAnyStream(g, xs, Queue.RemoveAll(g.stream, RefsWithValue(g, vals)));
    }
  }

  lemma RemoveEachTidyAnyStream(g: Graph, xs: seq<EdgeRef>, s: Queue.Stream)
    requires Consistent(g) && Tidy(g) && LiveOrGone(g, xs)
    ensures Tidy(RemoveEach(g, xs).(stream := s))
  {
    RemoveEachTidy(g, xs);
  }

  /** Without the live-or-gone condition the corrected removeEdges need not keep the
      chains tidy: a stale object equal to a live edge takes that edge out of the
      edge set but leaves it threaded. */
  lemma RemoveEdgesFixedStaleUntidy(g: Graph, x: EdgeRef, y: EdgeRef)
    requires Indexed(g) && x < |g.objs| && x !in g.edges
    requires y in g.edges && y < |g.objs| && g.objs[y] == g.objs[x]
    ensures y !in RemoveEdgesFixed(g, [x]).graph.edges
    ensures !Tidy(RemoveEdgesFixed(g, [x]).graph)
  {
    RemoveStaleLeavesThreaded(g, x, y, false);
    RemoveEdgesFixedOne(g, x, y);
    UntidyAnyStream(RemoveEdgeWith(g, x, false).graph, RemoveEdgesFixed(g, [x]).graph.stream);
  }

  /** The corrected removeEdges of one object whose value is live is removeEdge of
      that object followed by the stream update. */
  lemma RemoveEdgesFixedOne(g: Graph, x: EdgeRef, y: EdgeRef)
    requires x < |g.objs| && y in g.edges && y < |g.objs| && g.objs[y] == g.objs[x]
    ensures RemoveEdgesFixed(g, [x]).graph
            == RemoveEdgeWith(g, x, false).graph.(stream := RemoveEdgesFixed(g, [x]).graph.stream)
  {
    assert [x][1..] == [];
    assert RemoveEach(g, [x]) == RemoveEdgeWith(g, x, false).graph by {
      assert RemoveEach(g, [x]) == RemoveEach(RemoveEdgeWith(g, x, false).graph, []);
    }
    assert Values(g, [x]) == {g.objs[x]};
    assert y in g.edges * RefsWithValue(g, Values(g, [x]));
  }

  lemma UntidyAnyStream(g: Graph, s: Queue.Stream)
    requires !Tidy(g)
    ensures !Tidy(g.(stream := s))
  {
  }

  // ---------------------------------------------------------------------------
  // swapEdgesOutOf

  /** new Edge(src, in, tgt): the same endpoints from the new statement; `kind` is
      the kind the Edge constructor derives from the new statement. */
  function Moved(v: Edge, stmt: Stmt, kind: Kind): Edge {
    Edge(v.src, stmt, v.tgt, kind)
  }

  function MovedAll(vals: set<Edge>, stmt: Stmt, kind: Kind): set<Edge> {
    set v | v in vals :: Moved(v, stmt, kind)
  }

  /** One round of the swap loop for each object of `xs`: removeEdge(e), then
      addEdge(new Edge(src, in, tgt)). Edge objects are only ever appended. */
  function SwapEach(g: Graph, xs: seq<EdgeRef>, stmt: Stmt, kind: Kind): (r: Graph)
    requires InArena(g, xs)
    ensures |g.objs| <= |r.objs| && r.objs[..|g.objs|] == g.objs
    decreases |xs|
  {
    if xs == [] then g
    else
      assert xs[0] in xs && forall x :: x in xs[1..] ==> x in xs;
      SwapStep(g, xs[0], stmt, kind);
      SwapEach(SwapRound(g, xs[0], stmt, kind), xs[1..], stmt, kind)
  }

  /** One round of the swap loop: removeEdge(e), then addEdge(new Edge(src, in, tgt)). */
  function SwapRound(g: Graph, x: EdgeRef, stmt: Stmt, kind: Kind): Graph
    requires x < |g.objs|
  {
    AddEdge(RemoveEdgeWith(g, x, true).graph, Moved(g.objs[x], stmt, kind)).graph
  }

  /** swapEdgesOutOf(out, in): walks the iterator over the edges of statement `out`
      and swaps each to `in`; answers whether the iterator yielded anything. The
      iterator has already stepped past an edge when it is removed, and additions
      at `in` do not touch the chain of `out`, so the walk visits what the iterator
      held at the start. With `out == in` the source's walk need not end: with two
      live edges of the given kind, each re-added copy joins the chain right where
      the iterator stands. This function is the walk over the starting chain that
      the code evidently intends; the two coincide when `out != in` or the chain
      holds at most one edge. The walk is required to meet only edges of the edge
      set. */
  function SwapEdgesOutOf(g: Graph, out: Stmt, stmt: Stmt, kind: Kind): (r: Update)
    requires forall x :: x in Remaining(g, Start(g, OfUnit(out))) ==> x in g.edges
    ensures r.changed <==> Remaining(g, Start(g, OfUnit(out))) != []
    ensures !r.changed ==> r.graph == g
    ensures |g.objs| <= |r.graph.objs| && r.graph.objs[..|g.objs|] == g.objs
  {
    var xs := Remaining(g, Start(g, OfUnit(out)));
    Update(xs != [], SwapEach(g, xs, stmt, kind))
  }

  lemma {:induction false} SwapEachValid(g: Graph, xs: seq<EdgeRef>, stmt: Stmt, kind: Kind)
    requires Valid(g) && InArena(g, xs)
    ensures Valid(SwapEach(g, xs, stmt, kind))
    decreases |xs|
  {
    if xs != [] {
      assert xs[0] in xs;
      var g1 := SwapRound(g, xs[0], stmt, kind);
      SwapRoundValid(g, xs[0], stmt, kind);
      assert InArena(g1, xs[1..]) by {
        assert |g1.objs| >= |g.objs|;
        assert forall x :: x in xs[1..] ==> x in xs;
      }
      SwapEachValid(g1, xs[1..], stmt, kind);
    }
  }

  /** swapEdgesOutOf keeps every invariant of the store. */
  lemma SwapEdgesOutOfValid(g: Graph, out: Stmt, stmt: Stmt, kind: Kind)
    requires Valid(g)
    requires forall x :: x in Remaining(g, Start(g, OfUnit(out))) ==> x in g.edges
    ensures Valid(SwapEdgesOutOf(g, out, stmt, kind).graph)
  {
    SwapEachValid(g, Remaining(g, Start(g, OfUnit(out))), stmt, kind);
  }

  /** Every object of `xs` has statement `u`. */
  predicate AllAt(g: Graph, xs: seq<EdgeRef>, u: Stmt) {
    forall x :: x in xs ==> x < |g.objs| && g.objs[x].stmt == u
  }

  /** One swap round at a time: the edge set loses the swapped values and gains
      their moved copies. A moved copy that equals a later swapped value is put back
      by that value's own round, as moving is idempotent. */
  lemma {:induction false} SwapEachEdgeSet(g: Graph, xs: seq<EdgeRef>, out: Stmt, stmt: Stmt, kind: Kind)
    requires AllAt(g, xs, out)
    ensures EdgeSet(SwapEach(g, xs, stmt, kind)) == (EdgeSet(g) - Values(g, xs)) + MovedAll(Values(g, xs), stmt, kind)
    decreases |xs|
  {
    if xs == [] {
      assert Values(g, xs) == {};
    } else {
      assert xs[0] in xs;
      var v := g.objs[xs[0]];
      var m := Moved(v, stmt, kind);
      var g2 := SwapRound(g, xs[0], stmt, kind);
      var rest := Values(g, xs[1..]);
      var moved := MovedAll(rest, stmt, kind);
      assert EdgeSet(g2) == (EdgeSet(g) - {v}) + {m} && AllAt(g2, xs[1..], out) && Values(g2, xs[1..]) == rest by {
        assert xs[0] in xs && forall x :: x in xs[1..] ==> x in xs;
        SwapStep(g, xs[0], stmt, kind);
        PrefixValues(g, g2, xs[1..], out);
      }
      assert SwapEach(g, xs, stmt, kind) == SwapEach(g2, xs[1..], stmt, kind) by {
        assert InArena(g2, xs[1..]);
      }
      assert EdgeSet(SwapEach(g2, xs[1..], stmt, kind)) == (EdgeSet(g2) - rest) + moved by {
        SwapEachEdgeSet(g2, xs[1..], out, stmt, kind);
      }
      assert Values(g, xs) == {v} + rest && MovedAll(Values(g, xs), stmt, kind) == {m} + moved by {
        assert xs[0] in xs;
        MovedSplit(v, rest, stmt, kind);
      }
      assert m in rest ==> m in moved by {
        assert Moved(m, stmt, kind) == m;
      }
      SwapAlgebra(EdgeSet(g), v, m, rest, moved);
    }
  }

  /** One round: the value of `x` leaves the edge set and its moved copy joins it. */
  lemma SwapStep(g: Graph, x: EdgeRef, stmt: Stmt, kind: Kind)
    requires x < |g.objs|
    ensures var g2 := SwapRound(g, x, stmt, kind);
            && |g.objs| <= |g2.objs| && g2.objs[..|g.objs|] == g.objs
            && EdgeSet(g2) == (EdgeSet(g) - {g.objs[x]}) + {Moved(g.objs[x], stmt, kind)}
  {
  }

  lemma PrefixValues(g: Graph, g2: Graph, xs: seq<EdgeRef>, out: Stmt)
    requires AllAt(g, xs, out) && |g.objs| <= |g2.objs| && g2.objs[..|g.objs|] == g.objs
    ensures AllAt(g2, xs, out) && Values(g2, xs) == Values(g, xs)
  {
    forall x | x in xs ensures x < |g2.objs| && g2.objs[x] == g.objs[x] {
      assert g2.objs[x] == g2.objs[..|g.objs|][x];
    }
  }

  lemma SwapAlgebra<T>(s: set<T>, v: T, m: T, rest: set<T>, moved: set<T>)
    requires m in rest ==> m in moved
    ensures ((s - {v}) + {m} - rest) + moved == (s - ({v} + rest)) + ({m} + moved)
  {
  }

  lemma MovedSplit(v: Edge, rest: set<Edge>, stmt: Stmt, kind: Kind)
    ensures MovedAll({v} + rest, stmt, kind) == {Moved(v, stmt, kind)} + MovedAll(rest, stmt, kind)
  {
  }

  lemma SwapRoundValid(g: Graph, x: EdgeRef, stmt: Stmt, kind: Kind)
    requires Valid(g) && x < |g.objs|
    ensures Valid(SwapRound(g, x, stmt, kind))
  {
    var g1 := RemoveEdgeWith(g, x, true).graph;
    RemoveEdgeValid(g, x);
    AddEdgeValid(g1, Moved(g.objs[x], stmt, kind));
  }

  /** With chains that hold only edges of the edge set and no invalid kind, the
      swap answers whether there was an edge at `out`, and moves exactly the edges
      at `out` to the new statement. */
  lemma SwapEdgesOutOfEffect(g: Graph, out: Stmt, stmt: Stmt, kind: Kind)
    requires Indexed(g) && Tidy(g) && NoInvalidEdges(g)
    ensures SwapEdgesOutOf(g, out, stmt, kind).changed <==> exists e :: e in EdgeSet(g) && e.stmt == out
    ensures EdgeSet(SwapEdgesOutOf(g, out, stmt, kind).graph)
              == (set e | e in EdgeSet(g) && e.stmt != out) + (set e | e in EdgeSet(g) && e.stmt == out :: Moved(e, stmt, kind))
  {
    var xs := Remaining(g, Start(g, OfUnit(out)));
    SwapWalk(g, out);
    SwapEachAt(g, xs, out, stmt, kind);
  }

  /** Swapping objects whose values are exactly the edges at `out`. */
  lemma SwapEachAt(g: Graph, xs: seq<EdgeRef>, out: Stmt, stmt: Stmt, kind: Kind)
    requires AllAt(g, xs, out) && Values(g, xs) == set e | e in EdgeSet(g) && e.stmt == out
    ensures EdgeSet(SwapEach(g, xs, stmt, kind))
              == (set e | e in EdgeSet(g) && e.stmt != out) + (set e | e in EdgeSet(g) && e.stmt == out :: Moved(e, stmt, kind))
  {
    SwapEachEdgeSet(g, xs, out, stmt, kind);
    SplitAt(EdgeSet(g), out, stmt, kind);
  }

  /** The walk over statement `out` meets only edges of the edge set, and their
      values are exactly the edges at `out`. */
  lemma SwapWalk(g: Graph, out: Stmt)
    requires Indexed(g) && Tidy(g) && NoInvalidEdges(g)
    ensures var xs := Remaining(g, Start(g, OfUnit(out)));
            var at := set e | e in EdgeSet(g) && e.stmt == out;
            && (forall x :: x in xs ==> x in g.edges)
            && AllAt(g, xs, out) && Values(g, xs) == at && (xs != [] <==> at != {})
  {
    var xs := Remaining(g, Start(g, OfUnit(out)));
    IteratorExact(g, OfUnit(out));
    SwapHits(g, out, xs);
  }

  /** Swapping the edges of a statement onto itself with the kind they already have
      leaves the edge set as it was. */
  lemma SwapInPlaceKeepsEdges(g: Graph, out: Stmt, kind: Kind)
    requires Indexed(g) && Tidy(g) && NoInvalidEdges(g)
    requires forall e :: e in EdgeSet(g) && e.stmt == out ==> e.kind == kind
    ensures EdgeSet(SwapEdgesOutOf(g, out, out, kind).graph) == EdgeSet(g)
  {
    SwapEdgesOutOfEffect(g, out, out, kind);
    MovedInPlace(EdgeSet(g), out, kind);
  }

  lemma MovedInPlace(es: set<Edge>, out: Stmt, kind: Kind)
    requires forall e :: e in es && e.stmt == out ==> e.kind == kind
    ensures (set e | e in es && e.stmt != out) + (set e | e in es && e.stmt == out :: Moved(e, out, kind)) == es
  {
    assert forall e :: e in es && e.stmt == out ==> Moved(e, out, kind) == e;
  }

  /** The walk over statement `out` meets exactly the edges of the edge set there. */
  lemma SwapHits(g: Graph, out: Stmt, xs: seq<EdgeRef>)
    requires forall x :: x in xs <==> x in g.edges && x < |g.objs| && Matches(OfUnit(out), g.objs[x])
    ensures var at := set e | e in EdgeSet(g) && e.stmt == out;
            AllAt(g, xs, out) && Values(g, xs) == at && (xs != [] <==> at != {})
  {
    var at := set e | e in EdgeSet(g) && e.stmt == out;
    forall e | e in at ensures e in Values(g, xs) {
      var y :| y in g.edges && y < |g.objs| && g.objs[y] == e;
      assert y in xs;
    }
    if xs != [] {
      assert xs[0] in xs;
      assert g.objs[xs[0]] in at;
    }
  }

  lemma SplitAt(es: set<Edge>, out: Stmt, stmt: Stmt, kind: Kind)
    ensures var at := set e | e in es && e.stmt == out;
            && es - at == (set e | e in es && e.stmt != out)
            && MovedAll(at, stmt, kind) == (set e | e in es && e.stmt == out :: Moved(e, stmt, kind))
  {
  }
}

=== FILE: chain.dfy ===
/** The three intrusive edge chains of the store (by call site, by source method,
    by target method). In the source every chain is a stretch of one doubly linked
    ring threaded through a shared sentinel edge; a key's stretch begins at the
    edge the key's index entry points to and ends where the ring reaches an edge
    with another key, or the sentinel. Here an index maps each key to that stretch,
    as a sequence of edge references with the index head first. */
module Chain {

  /** An index: key to the references of the edges in that key's chain, head first. */
  type Index<K> = map<K, seq<nat>>

  /** Strictly decreasing references. Later edges get larger references, so this is
      "newest first", the order that splicing right after the head produces. */
  predicate Decreasing(t: seq<nat>) {
    forall i, j :: 0 <= i < j < |t| ==> t[i] > t[j]
  }

  /** The chain `c` of key `k` is non-empty, holds only edges with key `k`, holds no
      reference twice, and lists everything after the head newest first. */
  predicate ChainWF<E, K(==)>(c: seq<nat>, k: K, objs: seq<E>, key: E -> K) {
    && |c| > 0
    && (forall i :: 0 <= i < |c| ==> c[i] < |objs| && key(objs[c[i]]) == k)
    && c[0] !in c[1..]
    && Decreasing(c[1..])
  }

  predicate WF<E, K(==)>(idx: Index<K>, objs: seq<E>, key: E -> K) {
    forall k :: k in idx ==> ChainWF(idx[k], k, objs, key)
  }

  /** Edge `x` is threaded into the chain of key `k`. */
  predicate InChain<K(==)>(idx: Index<K>, k: K, x: nat) {
    k in idx && x in idx[k]
  }

  /** `c` with every occurrence of `x` unlinked; the others keep their order. */
  function Without(c: seq<nat>, x: nat): (r: seq<nat>)
    ensures forall y :: y in r <==> y in c && y != x
    ensures |r| <= |c|
    ensures x !in c ==> r == c
  {
    if c == [] then []
    else if c[0] == x then Without(c[1..], x)
    else [c[0]] + Without(c[1..], x)
  }

  /** Insertion of edge `x` with key `k` (Edge.insertAfterBy*): when the key already
      has a head, `x` is spliced in immediately after it and the head stays; when it
      has none, `x` is spliced in after the sentinel and becomes the key's head. */
  function Link<K(==)>(idx: Index<K>, k: K, x: nat): (r: Index<K>)
    ensures r.Keys == idx.Keys + {k}
    ensures forall k' :: k' in idx && k' != k ==> r[k'] == idx[k']
    ensures k in idx && |idx[k]| > 0 ==>
              |r[k]| == |idx[k]| + 1 && r[k][0] == idx[k][0] && r[k][1] == x && r[k][2..] == idx[k][1..]
    ensures k !in idx ==> r[k] == [x]
  {
    if k in idx && |idx[k]| > 0 then idx[k := [idx[k][0], x] + idx[k][1..]]
    else idx[k := [x]]
  }

  /** Removal of edge `x` from the chain of key `k` (Edge.remove followed by the
      head check of removeEdge): when `x` is the head, the head moves to the next
      edge of the chain, or the key leaves the index when there is none. */
  function Unlink<K(==)>(idx: Index<K>, k: K, x: nat): (r: Index<K>)
    ensures r.Keys <= idx.Keys && forall k' :: k' in idx && k' != k ==> k' in r && r[k'] == idx[k']
    ensures k in r ==> k in idx && forall y :: y in r[k] <==> y in idx[k] && y != x
    ensures !InChain(r, k, x)
  {
    if k in idx && x in idx[k] then
      var c := Without(idx[k], x);
      if c == [] then idx - {k} else idx[k := c]
    else idx
  }

  lemma {:induction false} WithoutDecreasing(t: seq<nat>, x: nat)
    requires Decreasing(t)
    ensures Decreasing(Without(t, x))
  {
    if t != [] {
      WithoutDecreasing(t[1..], x);
      var w := Without(t[1..], x);
      assert forall y :: y in w ==> y in t[1..];
      if t[0] != x {
        assert Without(t, x) == [t[0]] + w;
        forall i, j | 0 <= i < j < |[t[0]] + w|
          ensures ([t[0]] + w)[i] > ([t[0]] + w)[j]
        {
          if i == 0 {
            assert w[j - 1] in t[1..];
          }
        }
      }
    }
  }

  /** Removing a reference that is not the head keeps the head and unlinks it from the tail. */
  lemma WithoutKeepsHead(c: seq<nat>, x: nat)
    requires |c| > 0 && c[0] != x
    ensures Without(c, x) == [c[0]] + Without(c[1..], x)
  {
  }

  lemma WithoutHead(c: seq<nat>)
    requires |c| > 0 && c[0] !in c[1..]
    ensures Without(c, c[0]) == c[1..]
  {
    assert Without(c[1..], c[0]) == c[1..];
  }

  lemma ChainExtend<E, K>(c: seq<nat>, k: K, objs: seq<E>, e: E, key: E -> K)
    requires ChainWF(c, k, objs, key)
    ensures ChainWF(c, k, objs + [e], key)
  {
    forall i | 0 <= i < |c|
      ensures c[i] < |objs + [e]| && key((objs + [e])[c[i]]) == k
    {
      assert (objs + [e])[c[i]] == objs[c[i]];
    }
  }

  /** Splicing a fresh edge with the chain's key right after the head keeps the chain well formed. */
  lemma SpliceWF<E, K>(c: seq<nat>, k: K, objs: seq<E>, e: E, key: E -> K)
    requires ChainWF(c, k, objs, key) && key(e) == k
    ensures ChainWF([c[0], |objs|] + c[1..], k, objs + [e], key)
  {
    var x, objs' := |objs|, objs + [e];
    ChainExtend(c, k, objs, e, key);
    var t := [x] + c[1..];
    var r := [c[0], x] + c[1..];
    assert r == [c[0]] + t;
    forall i, j | 0 <= i < j < |t| ensures t[i] > t[j] {
      if i == 0 {
        assert t[j] == c[j];
      } else {
        assert t[i] == c[i] && t[j] == c[j];
      }
    }
    assert r[1..] == t;
    assert objs'[x] == e;
    forall i | 0 <= i < |r| ensures r[i] < |objs'| && key(objs'[r[i]]) == k {
      if i >= 2 {
        assert r[i] == c[i - 1];
      }
    }
  }

  /** Linking a fresh edge keeps every chain well formed. */
  lemma LinkWF<E, K>(idx: Index<K>, objs: seq<E>, e: E, key: E -> K)
    requires WF(idx, objs, key)
    ensures WF(Link(idx, key(e), |objs|), objs + [e], key)
  {
    var k, x, objs' := key(e), |objs|, objs + [e];
    var r := Link(idx, k, x);
    forall k' | k' in r
      ensures ChainWF(r[k'], k', objs', key)
    {
      if k' != k {
        ChainExtend(idx[k'], k', objs, e, key);
      } else if k in idx {
        SpliceWF(idx[k], k, objs, e, key);
      } else {
        assert objs'[x] == e;
      }
    }
  }

  /** Unlinking an edge that leaves the chain non-empty keeps it well formed. */
  lemma WithoutWF<E, K>(c: seq<nat>, k: K, objs: seq<E>, x: nat, key: E -> K)
    requires ChainWF(c, k, objs, key) && Without(c, x) != []
    ensures ChainWF(Without(c, x), k, objs, key)
  {
    var w := Without(c, x);
    WithoutDecreasing(c[1..], x);
    if c[0] == x {
      WithoutHeadShape(c);
    } else {
      WithoutKeepsHead(c, x);
      assert w[1..] == Without(c[1..], x);
    }
    forall i | 0 <= i < |w| ensures w[i] < |objs| && key(objs[w[i]]) == k {
      assert w[i] in c;
    }
  }

  /** Unlinking the head leaves the tail, a chain of its own. */
  lemma WithoutHeadShape(c: seq<nat>)
    requires |c| > 1 && c[0] !in c[1..] && Decreasing(c[1..])
    ensures var w := Without(c, c[0]); w[0] !in w[1..] && Decreasing(w[1..])
  {
    WithoutHead(c);
    DecreasingTail(c[1..]);
  }

  /** The first element of a decreasing sequence is its largest, and the rest still decreases. */
  lemma DecreasingTail(w: seq<nat>)
    requires |w| > 0 && Decreasing(w)
    ensures w[0] !in w[1..] && Decreasing(w[1..])
  {
    assert Decreasing(w[1..]) by {
      assert forall i, j :: 0 <= i < j < |w[1..]| ==> w[1..][i] == w[i + 1] && w[1..][j] == w[j + 1];
    }
    assert w[0] !in w[1..] by {
      assert forall j :: 0 < j < |w| ==> w[0] > w[j];
    }
  }

  /** Unlinking keeps every chain well formed. */
  lemma UnlinkWF<E, K>(idx: Index<K>, objs: seq<E>, k: K, x: nat, key: E -> K)
    requires WF(idx, objs, key)
    ensures WF(Unlink(idx, k, x), objs, key)
  {
    if k in idx && x in idx[k] && Without(idx[k], x) != [] {
      WithoutWF(idx[k], k, objs, x, key);
    }
  }

  /** Unlinking the head moves the index entry to the next edge of the chain, or drops
      the key when the head was alone; unlinking any other edge keeps the head. */
  lemma UnlinkHead<E, K>(idx: Index<K>, objs: seq<E>, key: E -> K, k: K, x: nat)
    requires WF(idx, objs, key) && k in idx
    ensures idx[k][0] == x ==> (k in Unlink(idx, k, x) <==> |idx[k]| > 1)
    ensures idx[k][0] == x && |idx[k]| > 1 ==> Unlink(idx, k, x)[k] == idx[k][1..]
    ensures idx[k][0] != x ==> k in Unlink(idx, k, x) && Unlink(idx, k, x)[k][0] == idx[k][0]
  {
    var c := idx[k];
    if c[0] == x {
      WithoutHead(c);
    } else if x in c {
      WithoutKeepsHead(c, x);
    }
  }

  /** Unlinking `x` leaves every other edge where it was. */
  lemma UnlinkKeeps<K>(idx: Index<K>, k: K, x: nat, k': K, y: nat)
    requires InChain(idx, k', y) && y != x
    ensures InChain(Unlink(idx, k, x), k', y)
  {
    if k' == k && x in idx[k] {
      assert y in Without(idx[k], x);
    }
  }
}

=== FILE: edges.dfy ===
/** Adding and removing edges (OnFlyCallGraph.addEdge, removeEdge, removeEdges,
    removeAllEdgesOutOf, swapEdgesOutOf), and the invariants they keep. */
module EdgeOps {
  import opened Types
  import Chain
  import Queue
  import opened Store
  import opened Iterators

  /** addEdge: refuses an edge equal to one already in the edge set and changes
      nothing; otherwise records both endpoint methods and the call, appends the
      new object to the stream and threads it into the three chains. */
  function AddEdge(g: Graph, e: Edge): (r: Update)
    ensures !r.changed <==> e in EdgeSet(g)
    ensures !r.changed ==> r.graph == g
    ensures EdgeSet(r.graph) == EdgeSet(g) + {e}
    ensures r.changed ==>
              && r.graph.methods == g.methods + {e.src.sig, e.tgt.sig}
              && ContainsCall(r.graph, CallOf(e))
              && (forall c :: c != CallOf(e) ==> (ContainsCall(r.graph, c) <==> ContainsCall(g, c)))
              && r.graph.callCnt == g.callCnt + (if ContainsCall(g, CallOf(e)) then 0 else 1)
              && r.graph.objs == g.objs + [e]
              && r.graph.stream == g.stream + [Some(|g.objs|)]
  {
    if LiveRefs(g, e) != {} then
      Update(false, g)
    else
      assert forall y :: y in g.edges && y < |g.objs| && g.objs[y] == e ==> y in LiveRefs(g, e);
      AddEdgeSet(g, e);
      InsertedCalls(g, e);
      Update(true, Inserted(g, e))
  }

  /** Inserting records both endpoint methods and the call of the edge, and no other call. */
  lemma InsertedCalls(g: Graph, e: Edge)
    ensures var r := Inserted(g, e);
            && r.methods == g.methods + {e.src.sig, e.tgt.sig}
            && ContainsCall(r, CallOf(e))
            && (forall c :: c != CallOf(e) ==> (ContainsCall(r, c) <==> ContainsCall(g, c)))
            && r.callCnt == g.callCnt + (if ContainsCall(g, CallOf(e)) then 0 else 1)
  {
    var g1 := AddMethod(AddMethod(g, e.src.sig), e.tgt.sig);
    assert forall c :: ContainsCall(g1, c) <==> ContainsCall(g, c);
  }

  /** The store after addEdge has accepted `e` as object number |objs|. */
  function Inserted(g: Graph, e: Edge): Graph {
    var n := |g.objs|;
    var g1 := AddCall(AddMethod(AddMethod(g, e.src.sig), e.tgt.sig), e.src.sig, e.tgt.sig, e.stmt);
    g1.(objs := g.objs + [e],
        edges := g.edges + {n},
        stream := g.stream + [Some(n)],
        byUnit := Chain.Link(g.byUnit, e.stmt, n),
        bySrc := Chain.Link(g.bySrc, e.src, n),
        byTgt := Chain.Link(g.byTgt, e.tgt, n))
  }

  lemma AddEdgeSet(g: Graph, e: Edge)
    ensures EdgeSet(Inserted(g, e)) == EdgeSet(g) + {e}
  {
    var r, n := Inserted(g, e), |g.objs|;
    forall v | v in EdgeSet(r) ensures v in EdgeSet(g) + {e} {
      var y :| y in r.edges && y < |r.objs| && r.objs[y] == v;
      if y != n {
        assert g.objs[y] == v;
      }
    }
    forall v | v in EdgeSet(g) + {e} ensures v in EdgeSet(r) {
      if v == e {
        assert r.objs[n] == e;
      } else {
        var y :| y in g.edges && y < |g.objs| && g.objs[y] == v;
        assert r.objs[y] == v;
      }
    }
  }

  /** A successful addEdge grows the edge count by one; a refused one leaves it. */
  lemma AddEdgeSize(g: Graph, e: Edge)
    requires StreamCovers(g)
    ensures Size(AddEdge(g, e).graph) == Size(g) + (if AddEdge(g, e).changed then 1 else 0)
  {
    if AddEdge(g, e).changed {
      var n := |g.objs|;
      assert n !in g.edges;
      assert AddEdge(g, e).graph.edges == g.edges + {n};
    }
  }

  /** addEdge keeps every invariant of the store. */
  lemma AddEdgeValid(g: Graph, e: Edge)
    requires Valid(g)
    ensures Valid(AddEdge(g, e).graph)
  {
    if AddEdge(g, e).changed {
      assert LiveRefs(g, e) == {};
      InsertedStream(g, e);
      InsertedUnique(g, e);
      InsertedEndpoints(g, e);
      InsertedIndexed(g, e);
      AddCallCounted(AddMethod(AddMethod(g, e.src.sig), e.tgt.sig), e.src.sig, e.tgt.sig, e.stmt);
    }
  }

  lemma InsertedStream(g: Graph, e: Edge)
    requires StreamCovers(g) && StreamExact(g)
    ensures StreamCovers(Inserted(g, e)) && StreamExact(Inserted(g, e))
  {
    var r, n := Inserted(g, e), |g.objs|;
    forall i | 0 <= i < |r.stream| ensures r.stream[i] == Some(i) || r.stream[i] == None {
      if i < n { assert r.stream[i] == g.stream[i]; }
    }
    forall i | 0 <= i < |r.stream| && r.stream[i] == Some(i) ensures i in r.edges {
      if i < n { assert g.stream[i] == Some(i); }
    }
    forall y | y in r.edges ensures y < |r.objs| && r.stream[y] == Some(y) {
      if y != n { assert r.stream[y] == g.stream[y]; }
    }
  }

  lemma InsertedUnique(g: Graph, e: Edge)
    requires UniqueValues(g) && LiveRefs(g, e) == {}
    ensures UniqueValues(Inserted(g, e))
  {
    var r, n := Inserted(g, e), |g.objs|;
    forall y | y in g.edges && y < n ensures g.objs[y] != e {
      assert y !in LiveRefs(g, e);
    }
    forall y, z | y in r.edges && z in r.edges && y < |r.objs| && z < |r.objs| && r.objs[y] == r.objs[z]
      ensures y == z
    {
      if y != n && z != n {
        assert g.objs[y] == r.objs[y] && g.objs[z] == r.objs[z];
      }
    }
  }

  lemma InsertedEndpoints(g: Graph, e: Edge)
    requires EndpointsRecorded(g)
    ensures EndpointsRecorded(Inserted(g, e))
  {
    var r, n := Inserted(g, e), |g.objs|;
    forall y | y in r.edges && y < |r.objs|
      ensures r.objs[y].src.sig in r.methods && r.objs[y].tgt.sig in r.methods && ContainsCall(r, CallOf(r.objs[y]))
    {
      if y != n {
        assert r.objs[y] == g.objs[y];
        assert ContainsCall(g, CallOf(g.objs[y]));
      }
    }
  }

  lemma InsertedIndexed(g: Graph, e: Edge)
    requires Indexed(g)
    ensures Indexed(Inserted(g, e))
  {
    Chain.LinkWF(g.byUnit, g.objs, e, UnitKey);
    Chain.LinkWF(g.bySrc, g.objs, e, SrcKey);
    Chain.LinkWF(g.byTgt, g.objs, e, TgtKey);
    LinkThreads(g.byUnit, g.objs, g.edges, e, UnitKey);
    LinkThreads(g.bySrc, g.objs, g.edges, e, SrcKey);
    LinkThreads(g.byTgt, g.objs, g.edges, e, TgtKey);
  }

  /** Linking a new object under its key keeps every threaded object threaded and
      threads the new one. */
  lemma LinkThreads<K>(idx: Chain.Index<K>, objs: seq<Edge>, live: set<EdgeRef>, e: Edge, key: Edge -> K)
    requires forall y :: y in live && y < |objs| ==> Chain.InChain(idx, key(objs[y]), y)
    ensures var objs', n := objs + [e], |objs|;
            forall y :: y in live + {n} && y < |objs'| ==> Chain.InChain(Chain.Link(idx, key(e), n), key(objs'[y]), y)
  {
    var objs', n := objs + [e], |objs|;
    forall y | y in live + {n} && y < |objs'|
      ensures Chain.InChain(Chain.Link(idx, key(e), n), key(objs'[y]), y)
    {
      if y != n {
        assert objs'[y] == objs[y];
        LinkKeeps(idx, key(e), n, key(objs[y]), y);
      } else {
        LinkAdds(idx, key(e), n);
      }
    }
  }

  /** A successful addEdge writes an index entry only for a key that had none; under
      a key that already has a head, the new object is spliced right after the
      head, so the head stays. */
  lemma AddEdgeThreads(g: Graph, e: Edge)
    requires AddEdge(g, e).changed
    ensures var r, n := AddEdge(g, e).graph, |g.objs|;
            && (e.stmt in g.byUnit && |g.byUnit[e.stmt]| > 0 ==>
                  r.byUnit[e.stmt] == [g.byUnit[e.stmt][0], n] + g.byUnit[e.stmt][1..])
            && (e.stmt !in g.byUnit ==> r.byUnit[e.stmt] == [n])
            && (e.src in g.bySrc && |g.bySrc[e.src]| > 0 ==>
                  r.bySrc[e.src] == [g.bySrc[e.src][0], n] + g.bySrc[e.src][1..])
            && (e.src !in g.bySrc ==> r.bySrc[e.src] == [n])
            && (e.tgt in g.byTgt && |g.byTgt[e.tgt]| > 0 ==>
                  r.byTgt[e.tgt] == [g.byTgt[e.tgt][0], n] + g.byTgt[e.tgt][1..])
            && (e.tgt !in g.byTgt ==> r.byTgt[e.tgt] == [n])
            && (forall u :: u in g.byUnit && u != e.stmt ==> r.byUnit[u] == g.byUnit[u])
            && (forall m :: m in g.bySrc && m != e.src ==> r.bySrc[m] == g.bySrc[m])
            && (forall m :: m in g.byTgt && m != e.tgt ==> r.byTgt[m] == g.byTgt[m])
  {
    var r, n := AddEdge(g, e).graph, |g.objs|;
    assert r == Inserted(g, e);
    Spliced(g.byUnit, e.stmt, n);
    Spliced(g.bySrc, e.src, n);
    Spliced(g.byTgt, e.tgt, n);
  }

  lemma Spliced<K>(idx: Chain.Index<K>, k: K, x: nat)
    ensures k in idx && |idx[k]| > 0 ==> Chain.Link(idx, k, x)[k] == [idx[k][0], x] + idx[k][1..]
  {
    if k in idx && |idx[k]| > 0 {
      var r := Chain.Link(idx, k, x);
      assert r[k] == [r[k][0], r[k][1]] + r[k][2..];
    }
  }

  lemma LinkKeeps<K>(idx: Chain.Index<K>, k: K, x: nat, k': K, y: nat)
    requires Chain.InChain(idx, k', y)
    ensures Chain.InChain(Chain.Link(idx, k, x), k', y)
  {
    if k' == k {
      var c := idx[k];
      var i :| 0 <= i < |c| && c[i] == y;
      if i > 0 {
        assert Chain.Link(idx, k, x)[k][i + 1] == c[1..][i - 1];
      }
    }
  }

  lemma LinkAdds<K>(idx: Chain.Index<K>, k: K, x: nat)
    ensures Chain.InChain(Chain.Link(idx, k, x), k, x)
  {
    if k in idx && |idx[k]| > 0 {
      assert Chain.Link(idx, k, x)[k][1] == x;
    }
  }

  /** addEdge with tidy chains leaves them tidy: the new object joins the edge set. */
  lemma AddTidy(g: Graph, e: Edge)
    requires Tidy(g)
    ensures Tidy(AddEdge(g, e).graph)
  {
    if AddEdge(g, e).changed {
      var r, n := Inserted(g, e), |g.objs|;
      assert AddEdge(g, e).graph == r;
      LinkedStaysLive(g.byUnit, e.stmt, n, g.edges, r.edges);
      LinkedStaysLive(g.bySrc, e.src, n, g.edges, r.edges);
      LinkedStaysLive(g.byTgt, e.tgt, n, g.edges, r.edges);
    }
  }

  lemma LinkedStaysLive<K>(idx: Chain.Index<K>, k: K, x: nat, live: set<EdgeRef>, live': set<EdgeRef>)
    requires forall k', i :: k' in idx && 0 <= i < |idx[k']| ==> idx[k'][i] in live
    requires live + {x} <= live'
    ensures var r := Chain.Link(idx, k, x);
            forall k', i :: k' in r && 0 <= i < |r[k']| ==> r[k'][i] in live'
  {
    var r := Chain.Link(idx, k, x);
    forall k', i | k' in r && 0 <= i < |r[k']| ensures r[k'][i] in live' {
      if k' == k && k in idx && |idx[k]| > 0 && i >= 2 {
        assert r[k][i] == idx[k][1..][i - 2] == idx[k][i - 1];
      }
    }
  }

  /** addEdge of an edge with a proper kind threads no object of the sentinel's kind. */
  lemma AddNoInvalid(g: Graph, e: Edge)
    requires NoInvalidEdges(g) && e.kind != Invalid
    ensures NoInvalidEdges(AddEdge(g, e).graph)
  {
    if AddEdge(g, e).changed {
      LinkProper(g.byUnit, g.objs, e, e.stmt);
      LinkProper(g.bySrc, g.objs, e, e.src);
      LinkProper(g.byTgt, g.objs, e, e.tgt);
    }
  }

  lemma LinkProper<K>(idx: Chain.Index<K>, objs: seq<Edge>, e: Edge, k: K)
    requires ThreadedProper(idx, objs) && e.kind != Invalid
    ensures ThreadedProper(Chain.Link(idx, k, |objs|), objs + [e])
  {
    var r, objs' := Chain.Link(idx, k, |objs|), objs + [e];
    forall k', i | k' in r && 0 <= i < |r[k']| && r[k'][i] < |objs'| ensures objs'[r[k'][i]].kind != Invalid {
      var y := r[k'][i];
      if y < |objs| {
        if k' != k {
          assert y == idx[k'][i];
        } else if k in idx && |idx[k]| > 0 {
          assert y == idx[k][0] || y == |objs| || y == idx[k][1..][i - 2];
        }
        assert objs'[y] == objs[y];
      }
    }
  }

  /** removeEdge only unthreads, so it threads no object of the sentinel's kind. */
  lemma RemoveNoInvalid(g: Graph, x: EdgeRef, flag: bool)
    requires NoInvalidEdges(g) && x < |g.objs|
    ensures NoInvalidEdges(RemoveEdgeWith(g, x, flag).graph)
  {
    var v := g.objs[x];
    if RemoveEdgeWith(g, x, flag).changed {
      UnlinkProper(g.byUnit, g.objs, v.stmt, x);
      UnlinkProper(g.bySrc, g.objs, v.src, x);
      UnlinkProper(g.byTgt, g.objs, v.tgt, x);
    }
  }

  lemma UnlinkProper<K>(idx: Chain.Index<K>, objs: seq<Edge>, k: K, x: EdgeRef)
    requires ThreadedProper(idx, objs)
    ensures ThreadedProper(Chain.Unlink(idx, k, x), objs)
  {
    var r := Chain.Unlink(idx, k, x);
    forall k', i | k' in r && 0 <= i < |r[k']| && r[k'][i] < |objs| ensures objs[r[k'][i]].kind != Invalid {
      var y := r[k'][i];
      assert y in r[k'];
      var j :| 0 <= j < |idx[k']| && idx[k'][j] == y;
    }
  }

  // ---------------------------------------------------------------------------
  // Removal

  /** removeEdge(e, removeInEdgeList) for the edge object `x`. The edge set drops the
      edge equal to `x`; when there is none nothing else happens and the answer is
      false. Otherwise `x` is unlinked from its three chains, each index whose head
      it was moves to the next edge of the chain or drops the key, and, when asked,
      the stream tombstones every slot holding an equal edge. The method set, the
      calls and the counter stay: the source asks the set of calls under the source
      method to drop the target's method signature, which it never holds. */
  function RemoveEdgeWith(g: Graph, x: EdgeRef, removeInEdgeList: bool): (r: Update)
    requires x < |g.objs|
    ensures r.changed <==> g.objs[x] in EdgeSet(g)
    ensures !r.changed ==> r.graph == g
    ensures r.graph.edges == g.edges - RefsWithValue(g, {g.objs[x]})
    ensures EdgeSet(r.graph) == EdgeSet(g) - {g.objs[x]}
    ensures r.graph.methods == g.methods && r.graph.calls == g.calls && r.graph.callCnt == g.callCnt
    ensures r.graph.objs == g.objs
    ensures r.graph.stream == if r.changed && removeInEdgeList then Queue.RemoveAll(g.stream, RefsWithValue(g, {g.objs[x]})) else g.stream
    ensures r.changed ==>
              && !Chain.InChain(r.graph.byUnit, g.objs[x].stmt, x)
              && !Chain.InChain(r.graph.bySrc, g.objs[x].src, x)
              && !Chain.InChain(r.graph.byTgt, g.objs[x].tgt, x)
  {
    var v := g.objs[x];
    var held := LiveRefs(g, v);
    assert v in EdgeSet(g) <==> held != {} by {
      assert forall y :: y in g.edges && y < |g.objs| && g.objs[y] == v ==> y in held;
    }
    if held == {} then
      assert g.edges - RefsWithValue(g, {v}) == g.edges;
      Update(false, g)
    else
      var g1 := g.(edges := g.edges - held,
                   byUnit := Chain.Unlink(g.byUnit, v.stmt, x),
                   bySrc := Chain.Unlink(g.bySrc, v.src, x),
                   byTgt := Chain.Unlink(g.byTgt, v.tgt, x));
      assert g.edges - held == g.edges - RefsWithValue(g, {v});
      RemovedEdgeSet(g, v, g1);
      Update(true, if removeInEdgeList then g1.(stream := Queue.RemoveAll(g.stream, RefsWithValue(g, {v}))) else g1)
  }

  lemma RemovedEdgeSet(g: Graph, v: Edge, r: Graph)
    requires r.objs == g.objs && r.edges == g.edges - RefsWithValue(g, {v})
    ensures EdgeSet(r) == EdgeSet(g) - {v}
  {
    forall w | w in EdgeSet(g) - {v} ensures w in EdgeSet(r) {
      var y :| y in g.edges && y < |g.objs| && g.objs[y] == w;
      assert y in r.edges;
    }
  }

  /** removeEdge(e): removal that also tells the stream. */
  function RemoveEdge(g: Graph, x: EdgeRef): (r: Update)
    requires x < |g.objs|
    ensures r.changed <==> g.objs[x] in EdgeSet(g)
    ensures EdgeSet(r.graph) == EdgeSet(g) - {g.objs[x]}
    ensures r.graph.methods == g.methods && r.graph.calls == g.calls && r.graph.callCnt == g.callCnt
  {
    RemoveEdgeWith(g, x, true)
  }

  /** The assertion in removeEdge never fails: an edge of the edge set always has a
      non-empty set of calls under its source signature. */
  lemma CallsUnderLiveSource(g: Graph, y: EdgeRef)
    requires EndpointsRecorded(g) && y in g.edges && y < |g.objs|
    ensures CallsFrom(g, g.objs[y].src.sig) != {}
  {
    assert CallOf(g.objs[y]) in CallsFrom(g, g.objs[y].src.sig);
  }

  /** For each index whose head `x` was, removeEdge moves the head to the next edge of
      the chain, or drops the key when `x` was alone; other heads stay. */
  lemma RemoveEdgeRepoints(g: Graph, x: EdgeRef, flag: bool)
    requires Indexed(g) && x in g.edges && x < |g.objs|
    ensures var r := RemoveEdgeWith(g, x, flag).graph;
            var c := g.byUnit[g.objs[x].stmt];
            && (c[0] == x ==> (g.objs[x].stmt in r.byUnit <==> |c| > 1))
            && (c[0] == x && |c| > 1 ==> r.byUnit[g.objs[x].stmt] == c[1..])
            && (c[0] != x ==> r.byUnit[g.objs[x].stmt][0] == c[0])
    ensures var r := RemoveEdgeWith(g, x, flag).graph;
            var c := g.bySrc[g.objs[x].src];
            && (c[0] == x ==> (g.objs[x].src in r.bySrc <==> |c| > 1))
            && (c[0] == x && |c| > 1 ==> r.bySrc[g.objs[x].src] == c[1..])
            && (c[0] != x ==> r.bySrc[g.objs[x].src][0] == c[0])
    ensures var r := RemoveEdgeWith(g, x, flag).graph;
            var c := g.byTgt[g.objs[x].tgt];
            && (c[0] == x ==> (g.objs[x].tgt in r.byTgt <==> |c| > 1))
            && (c[0] == x && |c| > 1 ==> r.byTgt[g.objs[x].tgt] == c[1..])
            && (c[0] != x ==> r.byTgt[g.objs[x].tgt][0] == c[0])
  {
    var v := g.objs[x];
    assert x in LiveRefs(g, v);
    Chain.UnlinkHead(g.byUnit, g.objs, UnitKey, v.stmt, x);
    Chain.UnlinkHead(g.bySrc, g.objs, SrcKey, v.src, x);
    Chain.UnlinkHead(g.byTgt, g.objs, TgtKey, v.tgt, x);
  }

  /** removeEdge keeps every invariant that does not involve the stream's tombstones. */
  lemma RemoveConsistent(g: Graph, x: EdgeRef, flag: bool)
    requires Consistent(g) && x < |g.objs|
    ensures Consistent(RemoveEdgeWith(g, x, flag).graph)
  {
    var r := RemoveEdgeWith(g, x, flag).graph;
    if RemoveEdgeWith(g, x, flag).changed {
      RemovedStreamCovers(g, x, flag);
      RemovedIndexed(g, x, flag);
      assert EndpointsRecorded(r) by {
        forall y | y in r.edges && y < |r.objs|
          ensures r.objs[y].src.sig in r.methods && r.objs[y].tgt.sig in r.methods && ContainsCall(r, CallOf(r.objs[y]))
        {
          assert ContainsCall(g, CallOf(g.objs[y]));
        }
      }
    }
  }

  lemma RemovedStreamCovers(g: Graph, x: EdgeRef, flag: bool)
    requires StreamCovers(g) && x < |g.objs|
    ensures StreamCovers(RemoveEdgeWith(g, x, flag).graph)
  {
    var r := RemoveEdgeWith(g, x, flag).graph;
    var drop := RefsWithValue(g, {g.objs[x]});
    forall y | y in r.edges ensures y < |r.objs| && r.stream[y] == Some(y) {
      assert y !in drop;
    }
  }

  lemma RemovedIndexed(g: Graph, x: EdgeRef, flag: bool)
    requires Indexed(g) && x < |g.objs|
    ensures Indexed(RemoveEdgeWith(g, x, flag).graph)
  {
    var r := RemoveEdgeWith(g, x, flag).graph;
    if RemoveEdgeWith(g, x, flag).changed {
      var v := g.objs[x];
      Chain.UnlinkWF(g.byUnit, g.objs, v.stmt, x, UnitKey);
      Chain.UnlinkWF(g.bySrc, g.objs, v.src, x, SrcKey);
      Chain.UnlinkWF(g.byTgt, g.objs, v.tgt, x, TgtKey);
      forall y | y in r.edges && y < |r.objs|
        ensures Chain.InChain(r.byUnit, r.objs[y].stmt, y)
        ensures Chain.InChain(r.bySrc, r.objs[y].src, y)
        ensures Chain.InChain(r.byTgt, r.objs[y].tgt, y)
      {
        assert y !in RefsWithValue(g, {v});
        Chain.UnlinkKeeps(g.byUnit, v.stmt, x, g.objs[y].stmt, y);
        Chain.UnlinkKeeps(g.bySrc, v.src, x, g.objs[y].src, y);
        Chain.UnlinkKeeps(g.byTgt, v.tgt, x, g.objs[y].tgt, y);
      }
    }
  }

  /** removeEdge(e) keeps every invariant of the store. */
  lemma RemoveEdgeValid(g: Graph, x: EdgeRef)
    requires Valid(g) && x < |g.objs|
    ensures Valid(RemoveEdge(g, x).graph)
  {
    RemoveConsistent(g, x, true);
    RemovedStreamExact(g, x);
  }

  lemma RemovedStreamExact(g: Graph, x: EdgeRef)
    requires StreamExact(g) && x < |g.objs|
    ensures StreamExact(RemoveEdgeWith(g, x, true).graph)
  {
    var r := RemoveEdgeWith(g, x, true).graph;
    var drop := RefsWithValue(g, {g.objs[x]});
    forall i | 0 <= i < |r.stream| && r.stream[i] == Some(i) ensures i in r.edges {
      assert g.stream[i] == Some(i);
      assert i !in drop;
    }
  }

  /** With tidy chains, removing an edge of the edge set (or an object whose value is
      not in it) leaves the chains tidy. */
  lemma RemoveTidy(g: Graph, x: EdgeRef, flag: bool)
    requires Tidy(g) && UniqueValues(g) && Indexed(g) && x < |g.objs|
    requires x in g.edges || g.objs[x] !in EdgeSet(g)
    ensures Tidy(RemoveEdgeWith(g, x, flag).graph)
  {
    var r := RemoveEdgeWith(g, x, flag).graph;
    if RemoveEdgeWith(g, x, flag).changed {
      var v := g.objs[x];
      RemovedFields(g, x, flag);
      OthersStayLive(g, x, r.edges);
      UnlinkedStaysLive(g.byUnit, r.byUnit, v.stmt, x, g.edges, r.edges, g.objs, UnitKey);
      UnlinkedStaysLive(g.bySrc, r.bySrc, v.src, x, g.edges, r.edges, g.objs, SrcKey);
      UnlinkedStaysLive(g.byTgt, r.byTgt, v.tgt, x, g.edges, r.edges, g.objs, TgtKey);
    }
  }

  /** A removal that does its work unlinks `x` from its three chains. */
  lemma RemovedFields(g: Graph, x: EdgeRef, flag: bool)
    requires x < |g.objs| && RemoveEdgeWith(g, x, flag).changed
    ensures var r := RemoveEdgeWith(g, x, flag).graph;
            && r.byUnit == Chain.Unlink(g.byUnit, g.objs[x].stmt, x)
            && r.bySrc == Chain.Unlink(g.bySrc, g.objs[x].src, x)
            && r.byTgt == Chain.Unlink(g.byTgt, g.objs[x].tgt, x)
  {
  }

  /** removeEdge through an object outside the edge set that equals a live one takes
      the live object out of the edge set but leaves it threaded into its three
      chains, which then hold an object outside the edge set. */
  lemma RemoveStaleLeavesThreaded(g: Graph, x: EdgeRef, y: EdgeRef, flag: bool)
    requires Indexed(g) && x < |g.objs| && x !in g.edges
    requires y in g.edges && y < |g.objs| && g.objs[y] == g.objs[x]
    ensures var r := RemoveEdgeWith(g, x, flag).graph;
            && y !in r.edges
            && Chain.InChain(r.byUnit, g.objs[y].stmt, y)
            && Chain.InChain(r.bySrc, g.objs[y].src, y)
            && Chain.InChain(r.byTgt, g.objs[y].tgt, y)
            && !Tidy(r)
  {
    var v := g.objs[x];
    var r := RemoveEdgeWith(g, x, flag).graph;
    assert v in EdgeSet(g);
    RemovedFields(g, x, flag);
    assert y in RefsWithValue(g, {v});
    Chain.UnlinkKeeps(g.byUnit, v.stmt, x, v.stmt, y);
    Chain.UnlinkKeeps(g.bySrc, v.src, x, v.src, y);
    Chain.UnlinkKeeps(g.byTgt, v.tgt, x, v.tgt, y);
    var i :| 0 <= i < |r.byUnit[v.stmt]| && r.byUnit[v.stmt][i] == y;
  }

  /** With unique values, dropping the objects equal to live `x` drops only `x`. */
  lemma OthersStayLive(g: Graph, x: EdgeRef, live: set<EdgeRef>)
    requires UniqueValues(g) && x in g.edges && x < |g.objs|
    requires live == g.edges - RefsWithValue(g, {g.objs[x]})
    ensures forall z :: z in g.edges && z != x ==> z in live
  {
  }

  lemma UnlinkedStaysLive<K>(idx: Chain.Index<K>, idx': Chain.Index<K>, k: K, x: EdgeRef,
                             live: set<EdgeRef>, live': set<EdgeRef>, objs: seq<Edge>, key: Edge -> K)
    requires Chain.WF(idx, objs, key) && x < |objs| && key(objs[x]) == k
    requires idx' == Chain.Unlink(idx, k, x)
    requires forall k', i :: k' in idx && 0 <= i < |idx[k']| ==> idx[k'][i] in live
    requires forall z :: z in live && z != x ==> z in live'
    ensures forall k', i :: k' in idx' && 0 <= i < |idx'[k']| ==> idx'[k'][i] in live'
  {
    forall k', i | k' in idx' && 0 <= i < |idx'[k']| ensures idx'[k'][i] in live' {
      var z := idx'[k'][i];
      assert z in idx'[k'];
      assert k' in idx && z in idx[k'];
      var j :| 0 <= j < |idx[k']| && idx[k'][j] == z;
      if k' != k {
        assert key(objs[z]) == k';
      }
    }
  }

  // ---------------------------------------------------------------------------
  // Remove, then add again

  /** Removing an edge of the edge set and adding an equal edge again restores the
      edge set, and, since removal keeps methods and calls, leaves the method set,
      every containsCall answer and callCount as they were. */
  lemma RemoveThenAdd(g: Graph, x: EdgeRef)
    requires EndpointsRecorded(g) && x in g.edges && x < |g.objs|
    ensures var g1 := RemoveEdge(g, x).graph;
            var g2 := AddEdge(g1, g.objs[x]).graph;
            && RemoveEdge(g, x).changed && AddEdge(g1, g.objs[x]).changed
            && EdgeSet(g2) == EdgeSet(g)
            && g2.methods == g.methods
            && (forall c :: ContainsCall(g2, c) <==> ContainsCall(g, c))
            && CallCount(g2) == CallCount(g)
  {
    var v := g.objs[x];
    var g1 := RemoveEdge(g, x).graph;
    assert v in EdgeSet(g);
    assert v.src.sig in g.methods && v.tgt.sig in g.methods && ContainsCall(g, CallOf(v));
    assert g.methods + {v.src.sig, v.tgt.sig} == g.methods;
  }
}

=== FILE: findings.dfy ===
/** Three places where the store does not do what its documentation says:
    removeEdges leaves removed edges reachable through the chains, swapEdgesOutOf
    does not end when it swaps two live edges of the given kind onto their own
    statement, and
    isEntryMethod answers true for every method. Each is modelled as written,
    with an input that shows the discrepancy, next to a corrected definition and
    the property it was meant to have. */
module Findings {
  import opened Types
  import opened Store
  import opened Iterators
  import opened EdgeOps
  import opened BulkOps

  const Main := ContextMethod(MethodSignature("A", "main", [], "void"), 0)
  const Callee := ContextMethod(MethodSignature("A", "callee", [], "void"), 0)
  const Site := Stmt(1)
  const OneEdge := Edge(Main, Site, Callee, Static)

  /** The store after addEdge(OneEdge) on an empty store. */
  function OneEdgeStore(): Graph {
    AddEdge(Empty(), OneEdge).graph
  }

  lemma OneEdgeStoreShape()
    ensures OneEdgeStore().objs == [OneEdge] && OneEdgeStore().edges == {0}
    ensures OneEdgeStore().byUnit == map[Site := [0]]
    ensures OneEdgeStore().byTgt == map[Callee := [0]]
  {
    assert LiveRefs(Empty(), OneEdge) == {};
    assert AddEdge(Empty(), OneEdge).changed;
  }

  // ---------------------------------------------------------------------------
  // removeEdges

  /** removeEdges as written on the one-edge store: it answers true and the edge set
      is empty, yet the iterator over the edge's statement still yields the removed
      object, and findEdge still finds it. */
  lemma RemoveEdgesLeavesStaleChain()
    ensures var u := RemoveEdges(OneEdgeStore(), [0]);
            && u.changed
            && Size(u.graph) == 0
            && Remaining(u.graph, Start(u.graph, OfUnit(Site))) == [0]
            && FindEdge(u.graph, Site, Callee.sig) == Some(0)
  {
    var g := OneEdgeStore();
    OneEdgeStoreShape();
    assert Values(g, [0]) == {OneEdge};
    assert RefsWithValue(g, {OneEdge}) == {0};
    RemoveEdgesShape(g, [0]);
    var r := RemoveEdges(g, [0]).graph;
    assert r.byUnit == g.byUnit && r.objs == g.objs && r.edges == {};
    var it := Start(r, OfUnit(Site));
    assert it.position == [0];
    assert HasNext(r, it);
    assert Remaining(r, Next(r, it).1) == [];
  }

  /** The corrected removeEdges on the same store: the edge is gone from the edge set
      and from the chains, so the iterator yields nothing and findEdge finds nothing. */
  lemma RemoveEdgesFixedClearsChain()
    ensures var u := RemoveEdgesFixed(OneEdgeStore(), [0]);
            && u.changed
            && Size(u.graph) == 0
            && Remaining(u.graph, Start(u.graph, OfUnit(Site))) == []
            && FindEdge(u.graph, Site, Callee.sig) == None
  {
    var g := OneEdgeStore();
    OneEdgeStoreShape();
    assert Values(g, [0]) == {OneEdge};
    assert RefsWithValue(g, {OneEdge}) == {0};
    var g1 := RemoveEdgeWith(g, 0, false).graph;
    assert OneEdge in EdgeSet(g) by { assert 0 in g.edges; }
    assert RemoveEach(g, [0]) == g1 by { assert [0][1..] == []; }
    RemovedFields(g, 0, false);
    assert Chain.Without([0], 0) == [];
    assert g1.byUnit == map[];
  }

  // ---------------------------------------------------------------------------
  // swapEdgesOutOf

  /** The element after `x` in chain `c`, or None when `x` is last or absent; in the
      store's ring of edges, what follows the last edge of a statement has another
      statement (or is the sentinel), so hasNext is false there. */
  function Successor(c: seq<EdgeRef>, x: EdgeRef): (r: Option<EdgeRef>)
    ensures r.Some? ==> exists i :: 0 <= i < |c| - 1 && c[i] == x && c[i + 1] == r.value
    ensures |c| >= 2 && c[0] == x ==> r == Some(c[1])
  {
    if |c| < 2 then None
    else if c[0] == x then Some(c[1])
    else Successor(c[1..], x)
  }

  /** One pass of the loop of swapEdgesOutOf(out, in) as written, with the iterator
      on object `p` of the chain of `out`: next() returns `p` and moves to its
      successor in the chain as it stands, then removeEdge(p) and addEdge of the
      copy moved to `in`. Answers the store and the object hasNext looks at next
      (None: past the chain of `out`). */
  function SwapLoopStep(g: Graph, out: Stmt, p: EdgeRef, stmt: Stmt, kind: Kind): (Graph, Option<EdgeRef>)
    requires p < |g.objs|
  {
    (SwapRound(g, p, stmt, kind), Successor(ChainOf(g, OfUnit(out)), p))
  }

  /** Object `y` is a live edge at `u` of kind `kind`. */
  predicate LiveAt(g: Graph, u: Stmt, kind: Kind, y: EdgeRef) {
    y in g.edges && y < |g.objs| && g.objs[y].stmt == u && g.objs[y].kind == kind
  }

  /** The chain of `u` holds exactly two live edges of different values, both at `u`
      with the proper kind `kind`. */
  predicate SwapCycleState(g: Graph, u: Stmt, kind: Kind) {
    && kind != Invalid
    && u in g.byUnit && |g.byUnit[u]| == 2
    && LiveAt(g, u, kind, g.byUnit[u][0]) && LiveAt(g, u, kind, g.byUnit[u][1])
    && g.objs[g.byUnit[u][0]] != g.objs[g.byUnit[u][1]]
  }

  /** swapEdgesOutOf(u, u) as written, from the head of a two-edge chain: after a
      pass, hasNext is true at the object the iterator moved to, which is the new
      head of a chain in the same state, so the loop never ends. */
  lemma SwapInPlaceNeverEnds(g: Graph, u: Stmt, kind: Kind)
    requires SwapCycleState(g, u, kind)
    ensures var step := SwapLoopStep(g, u, g.byUnit[u][0], u, kind);
            && SwapCycleState(step.0, u, kind)
            && step.1 == Some(step.0.byUnit[u][0])
            && HasNext(step.0, Cursor(OfUnit(u), [step.0.byUnit[u][0]]))
  {
    var p, q := g.byUnit[u][0], g.byUnit[u][1];
    var v := g.objs[p];
    var g1 := RemoveEdgeWith(g, p, true).graph;
    SwapInPlaceRemoves(g, u, kind);
    assert Moved(v, u, kind) == v;
    SwapInPlaceAdds(g1, u, q, Moved(v, u, kind));
  }

  /** The addition half of a pass: the re-added value is spliced in after the head. */
  lemma SwapInPlaceAdds(g1: Graph, u: Stmt, q: EdgeRef, v: Edge)
    requires u in g1.byUnit && g1.byUnit[u] == [q] && v.stmt == u && v !in EdgeSet(g1)
    ensures var g2 := AddEdge(g1, v).graph;
            && g2.byUnit[u] == [q, |g1.objs|] && g2.objs == g1.objs + [v]
            && g2.edges == g1.edges + {|g1.objs|}
  {
  }

  /** The removal half of a pass: the chain of `u` keeps only its second edge, which
      stays live, and the first edge's value leaves the edge set. */
  lemma SwapInPlaceRemoves(g: Graph, u: Stmt, kind: Kind)
    requires SwapCycleState(g, u, kind)
    ensures var g1 := RemoveEdgeWith(g, g.byUnit[u][0], true).graph;
            && g1.byUnit[u] == [g.byUnit[u][1]] && g.byUnit[u][1] in g1.edges
            && g.objs[g.byUnit[u][0]] !in EdgeSet(g1) && g1.objs == g.objs
  {
    var p, q := g.byUnit[u][0], g.byUnit[u][1];
    assert p in g.edges;
    RemovedFields(g, p, true);
    assert Chain.Without([p, q], p) == [q] by {
      assert [p, q][1..] == [q];
      assert Chain.Without([q][1..], p) == [];
    }
    assert g.byUnit[u] == [p, q];
  }

  const OtherCallee := ContextMethod(MethodSignature("A", "other", [], "void"), 0)

  /** The store after adding two edges from the same call site. */
  function TwoEdgeStore(): Graph {
    AddEdge(OneEdgeStore(), Edge(Main, Site, OtherCallee, Static)).graph
  }

  /** A store on which swapEdgesOutOf(Site, Site) as written never ends. */
  lemma SwapInPlaceCounterexample()
    ensures SwapCycleState(TwoEdgeStore(), Site, Static)
    ensures Start(TwoEdgeStore(), OfUnit(Site)).position[0] == TwoEdgeStore().byUnit[Site][0]
  {
    TwoEdgeStoreShape();
  }

  lemma TwoEdgeStoreShape()
    ensures TwoEdgeStore().objs == [OneEdge, Edge(Main, Site, OtherCallee, Static)]
    ensures TwoEdgeStore().edges == {0, 1}
    ensures TwoEdgeStore().byUnit[Site] == [0, 1]
  {
    OneEdgeStoreShape();
    AddSecond(OneEdgeStore(), Edge(Main, Site, OtherCallee, Static));
  }

  /** Adding a second, different edge at the same call site to a one-edge store. */
  lemma AddSecond(g: Graph, e: Edge)
    requires g.objs == [OneEdge] && g.edges == {0} && g.byUnit == map[Site := [0]]
    requires e.stmt == Site && e != OneEdge
    ensures AddEdge(g, e).graph.objs == [OneEdge, e] && AddEdge(g, e).graph.edges == {0, 1}
    ensures AddEdge(g, e).graph.byUnit[Site] == [0, 1]
  {
    assert EdgeSet(g) == {OneEdge};
  }

  // ---------------------------------------------------------------------------
  // isEntryMethod

  /** What a map keyed by ContextMethod is asked with: isEntryMethod passes a
      method, not a method in context, and a method never equals a ContextMethod. */
  datatype Query = InContext(cm: ContextMethod) | Plain(sig: MethodSignature)

  /** isEntryMethod as written: tgtToEdge.containsKey(method) with a method that is
      not a ContextMethod. */
  predicate IsEntryMethodAsWritten(g: Graph, m: MethodSignature) {
    Plain(m) !in (set k | k in g.byTgt :: InContext(k))
  }

  /** As written, every method is reported as an entry method, even one that is the
      target of an edge of the edge set. */
  lemma IsEntryMethodAlwaysTrue(g: Graph, m: MethodSignature)
    ensures IsEntryMethodAsWritten(g, m)
  {
  }

  lemma IsEntryMethodCounterexample()
    ensures Callee.sig in (set y | y in OneEdgeStore().edges && y < |OneEdgeStore().objs| :: OneEdgeStore().objs[y].tgt.sig)
    ensures IsEntryMethodAsWritten(OneEdgeStore(), Callee.sig)
  {
    OneEdgeStoreShape();
  }

  /** isEntryMethod as documented: no ContextMethod of the method is a key of the
      target index. */
  predicate IsEntryMethod(g: Graph, m: MethodSignature) {
    forall k :: k in g.byTgt ==> k.sig != m
  }

  /** With chains that hold only edges of the edge set, the corrected isEntryMethod
      answers true exactly when no edge of the edge set has the method as target. */
  lemma IsEntryMethodExact(g: Graph, m: MethodSignature)
    requires Indexed(g) && Tidy(g)
    ensures IsEntryMethod(g, m) <==> forall y :: y in g.edges && y < |g.objs| ==> g.objs[y].tgt.sig != m
  {
    if !IsEntryMethod(g, m) {
      var k :| k in g.byTgt && k.sig == m;
      assert Chain.ChainWF(g.byTgt[k], k, g.objs, TgtKey);
      var y := g.byTgt[k][0];
      assert y in g.edges && y < |g.objs| && g.objs[y].tgt == k;
    }
    forall y | y in g.edges && y < |g.objs| ensures g.objs[y].tgt in g.byTgt {
      assert Chain.InChain(g.byTgt, g.objs[y].tgt, y);
    }
  }
}

=== FILE: graph.dfy ===
/** The call-graph edge store (OnFlyCallGraph): the set of method signatures, the
    per-source sets of calls with their counter, the set of edges, the three chain
    indices and the edge stream. Edge objects are references into the arena `objs`:
    reference i is the i-th edge the store accepted, and it is also the stream slot
    that edge was appended to. The edge set compares edges by value; the chains and
    the index heads compare them by reference. */
module Store {
  import opened Types
  import Chain
  import Queue

  /** An edge object, as its position in the arena. */
  type EdgeRef = nat

  datatype Graph = Graph(
    methods: set<MethodSignature>,
    calls: map<MethodSignature, set<Call>>,
    callCnt: nat,
    objs: seq<Edge>,
    edges: set<EdgeRef>,
    stream: Queue.Stream,
    byUnit: Chain.Index<Stmt>,
    bySrc: Chain.Index<ContextMethod>,
    byTgt: Chain.Index<ContextMethod>)

  /** The answer of a mutating operation together with the store after it. */
  datatype Update = Update(changed: bool, graph: Graph)

  /** A freshly constructed store. */
  function Empty(): Graph {
    Graph({}, map[], 0, [], {}, [], map[], map[], map[])
  }

  // ---------------------------------------------------------------------------
  // Views

  /** The edges in the edge set, as values. */
  function EdgeSet(g: Graph): set<Edge> {
    set y | y in g.edges && y < |g.objs| :: g.objs[y]
  }

  /** The objects in the edge set that are equal to `v`. */
  function LiveRefs(g: Graph, v: Edge): set<EdgeRef> {
    set y | y in g.edges && y < |g.objs| && g.objs[y] == v
  }

  /** Every object of the arena whose value is one of `vs`. */
  function RefsWithValue(g: Graph, vs: set<Edge>): set<EdgeRef> {
    set i | 0 <= i < |g.objs| && g.objs[i] in vs
  }

  /** Every call recorded under any source. */
  function AllCalls(calls: map<MethodSignature, set<Call>>): set<Call> {
    set k, c | k in calls && c in calls[k] :: c
  }

  // ---------------------------------------------------------------------------
  // Invariants

  /** Stream slot i holds reference i or a tombstone, and every edge of the edge set
      still has its slot. */
  predicate StreamCovers(g: Graph) {
    && |g.stream| == |g.objs|
    && (forall i :: 0 <= i < |g.stream| ==> g.stream[i] == Some(i) || g.stream[i] == None)
    && (forall y :: y in g.edges ==> y < |g.objs| && g.stream[y] == Some(y))
  }

  /** Only edges of the edge set are still in the stream. */
  predicate StreamExact(g: Graph) {
    forall i :: 0 <= i < |g.stream| && g.stream[i] == Some(i) ==> i in g.edges
  }

  /** No two objects of the edge set are equal (it is a set of values). */
  predicate UniqueValues(g: Graph) {
    forall y, z :: y in g.edges && z in g.edges && y < |g.objs| && z < |g.objs| && g.objs[y] == g.objs[z] ==> y == z
  }

  /** Both endpoint signatures of every edge are known methods, and its call is recorded. */
  predicate EndpointsRecorded(g: Graph) {
    forall y :: y in g.edges && y < |g.objs| ==>
      && g.objs[y].src.sig in g.methods
      && g.objs[y].tgt.sig in g.methods
      && ContainsCall(g, CallOf(g.objs[y]))
  }

  /** Calls are filed under their own source, and the counter is their number. */
  predicate CallsCounted(g: Graph) {
    && (forall k, c :: k in g.calls && c in g.calls[k] ==> c.source == k)
    && g.callCnt == |AllCalls(g.calls)|
  }

  /** The three indices are well formed and thread every edge of the edge set. */
  predicate Indexed(g: Graph) {
    && Chain.WF(g.byUnit, g.objs, UnitKey)
    && Chain.WF(g.bySrc, g.objs, SrcKey)
    && Chain.WF(g.byTgt, g.objs, TgtKey)
    && (forall y :: y in g.edges && y < |g.objs| ==>
          && Chain.InChain(g.byUnit, g.objs[y].stmt, y)
          && Chain.InChain(g.bySrc, g.objs[y].src, y)
          && Chain.InChain(g.byTgt, g.objs[y].tgt, y))
  }

  /** Everything that holds between any two steps of the store, even in the middle of
      a bulk removal that defers telling the stream. */
  predicate Consistent(g: Graph) {
    StreamCovers(g) && UniqueValues(g) && EndpointsRecorded(g) && CallsCounted(g) && Indexed(g)
  }

  /** What holds between any two calls of the store's public operations. */
  predicate Valid(g: Graph) {
    Consistent(g) && StreamExact(g)
  }

  /** No object threaded into a chain of `idx` has the sentinel's kind. */
  predicate ThreadedProper<K>(idx: Chain.Index<K>, objs: seq<Edge>) {
    forall k, i :: k in idx && 0 <= i < |idx[k]| && idx[k][i] < |objs| ==> objs[idx[k][i]].kind != Invalid
  }

  /** No edge threaded into any of the three chains has the sentinel's kind, so the
      iterators' stop at an INVALID edge can only fire at the sentinel. What removal
      does to the kind of an object it unthreads does not matter here. */
  predicate NoInvalidEdges(g: Graph) {
    && ThreadedProper(g.byUnit, g.objs)
    && ThreadedProper(g.bySrc, g.objs)
    && ThreadedProper(g.byTgt, g.objs)
  }

  /** The chains hold only edges of the edge set (no removed edge left behind). */
  predicate Tidy(g: Graph) {
    && (forall k, i :: k in g.byUnit && 0 <= i < |g.byUnit[k]| ==> g.byUnit[k][i] in g.edges)
    && (forall k, i :: k in g.bySrc && 0 <= i < |g.bySrc[k]| ==> g.bySrc[k][i] in g.edges)
    && (forall k, i :: k in g.byTgt && 0 <= i < |g.byTgt[k]| ==> g.byTgt[k][i] in g.edges)
  }

  // ---------------------------------------------------------------------------
  // Method and call bookkeeping (the MutableCallGraph API)

  predicate ContainsMethod(g: Graph, m: MethodSignature) {
    m in g.methods
  }

  function GetMethodSignatures(g: Graph): set<MethodSignature> {
    g.methods
  }

  /** containsCall: the call is in the set filed under its source. */
  predicate ContainsCall(g: Graph, c: Call) {
    c.source in g.calls && c in g.calls[c.source]
  }

  function CallCount(g: Graph): nat {
    g.callCnt
  }

  /** callsFrom: the set filed under `src`, empty when there is none. */
  function CallsFrom(g: Graph, src: MethodSignature): set<Call> {
    if src in g.calls then g.calls[src] else {}
  }

  /** callTargetsFrom: the targets of the calls filed under `src`. */
  function CallTargetsFrom(g: Graph, src: MethodSignature): set<MethodSignature> {
    set c | c in CallsFrom(g, src) :: c.target
  }

  /** size: the number of edges in the edge set. */
  function Size(g: Graph): nat {
    |g.edges|
  }

  /** sourceMethods: the methods with a source-method index entry. */
  function SourceMethods(g: Graph): set<ContextMethod> {
    g.bySrc.Keys
  }

  /** getEntryMethods is a stub that answers the empty list. */
  function GetEntryMethods(g: Graph): seq<MethodSignature> {
    []
  }

  /** copy, diff, exportAsDot and callsTo throw UnsupportedOperationException, and
      callSourcesTo throws through callsTo. */
  function Copy(g: Graph): Result<Graph> {
    Fail(Unsupported)
  }

  function Diff(g: Graph, other: Graph): Result<set<Call>> {
    Fail(Unsupported)
  }

  function ExportAsDot(g: Graph): Result<string> {
    Fail(Unsupported)
  }

  function CallsTo(g: Graph, tgt: MethodSignature): Result<set<Call>> {
    Fail(Unsupported)
  }

  function CallSourcesTo(g: Graph, tgt: MethodSignature): Result<set<MethodSignature>> {
    match CallsTo(g, tgt)
    case Fail(f) => Fail(f)
    case Success(cs) => Success(set c | c in cs :: c.source)
  }

  /** With every call filed under its own source: the recorded calls are exactly
      those containsCall accepts, so callCount counts them; callsFrom holds the
      recorded calls from `src`, and callTargetsFrom their targets. */
  lemma CallQueries(g: Graph, src: MethodSignature)
    requires CallsCounted(g)
    ensures forall c :: c in AllCalls(g.calls) <==> ContainsCall(g, c)
    ensures CallCount(g) == |AllCalls(g.calls)|
    ensures forall c :: c in CallsFrom(g, src) <==> ContainsCall(g, c) && c.source == src
    ensures forall t :: t in CallTargetsFrom(g, src) <==> exists s :: ContainsCall(g, Call(src, t, s))
  {
    forall c | ContainsCall(g, c) ensures c in AllCalls(g.calls) {
      assert c.source in g.calls && c in g.calls[c.source];
    }
    forall t | t in CallTargetsFrom(g, src) ensures exists s :: ContainsCall(g, Call(src, t, s)) {
      var c :| c in CallsFrom(g, src) && c.target == t;
      assert c == Call(src, t, c.stmt);
    }
    forall t | (exists s :: ContainsCall(g, Call(src, t, s))) ensures t in CallTargetsFrom(g, src) {
      var s :| ContainsCall(g, Call(src, t, s));
      assert Call(src, t, s) in CallsFrom(g, src);
    }
  }

  /** size counts edges as values: with no two equal objects in the edge set, the
      number of objects is the number of distinct edges. */
  lemma {:induction false} SizeIsEdgeCount(g: Graph)
    requires UniqueValues(g) && forall y :: y in g.edges ==> y < |g.objs|
    ensures Size(g) == |EdgeSet(g)|
    decreases |g.edges|
  {
    if g.edges != {} {
      var y :| y in g.edges;
      var g' := g.(edges := g.edges - {y});
      SizeIsEdgeCount(g');
      assert EdgeSet(g) == EdgeSet(g') + {g.objs[y]};
      assert g.objs[y] !in EdgeSet(g');
    }
  }

  /** With chains that hold only edges of the edge set, sourceMethods are exactly the
      source methods of the edges in the edge set. */
  lemma SourceMethodsExact(g: Graph, m: ContextMethod)
    requires Indexed(g) && Tidy(g)
    ensures m in SourceMethods(g) <==> exists y :: y in g.edges && y < |g.objs| && g.objs[y].src == m
  {
    if m in SourceMethods(g) {
      assert Chain.ChainWF(g.bySrc[m], m, g.objs, SrcKey);
      var y := g.bySrc[m][0];
      assert y in g.edges && y < |g.objs| && g.objs[y].src == m;
    }
  }

  /** addMethod is idempotent and only ever grows the method set. */
  function AddMethod(g: Graph, m: MethodSignature): (r: Graph)
    ensures forall x :: ContainsMethod(r, x) <==> ContainsMethod(g, x) || x == m
    ensures r.calls == g.calls && r.callCnt == g.callCnt && r.objs == g.objs && r.edges == g.edges
    ensures r.stream == g.stream && r.byUnit == g.byUnit && r.bySrc == g.bySrc && r.byTgt == g.byTgt
  {
    g.(methods := g.methods + {m})
  }

  /** addCall records the call under its source and bumps the counter exactly when
      the call was not recorded before. */
  function AddCall(g: Graph, src: MethodSignature, tgt: MethodSignature, stmt: Stmt): (r: Graph)
    ensures ContainsCall(r, Call(src, tgt, stmt))
    ensures forall c :: c != Call(src, tgt, stmt) ==> (ContainsCall(r, c) <==> ContainsCall(g, c))
    ensures r.callCnt == g.callCnt + (if ContainsCall(g, Call(src, tgt, stmt)) then 0 else 1)
    ensures r.methods == g.methods && r.objs == g.objs && r.edges == g.edges && r.stream == g.stream
    ensures r.byUnit == g.byUnit && r.bySrc == g.bySrc && r.byTgt == g.byTgt
  {
    var c := Call(src, tgt, stmt);
    var targets := if src in g.calls then g.calls[src] else {};
    if c in targets then g
    else g.(calls := g.calls[src := targets + {c}], callCnt := g.callCnt + 1)
  }

  lemma AllCallsInsert(calls: map<MethodSignature, set<Call>>, c: Call)
    requires forall k, d :: k in calls && d in calls[k] ==> d.source == k
    requires c.source !in calls || c !in calls[c.source]
    ensures var targets := if c.source in calls then calls[c.source] else {};
            AllCalls(calls[c.source := targets + {c}]) == AllCalls(calls) + {c}
    ensures c !in AllCalls(calls)
  {
    var targets := if c.source in calls then calls[c.source] else {};
    var calls' := calls[c.source := targets + {c}];
    forall d | d in AllCalls(calls') ensures d in AllCalls(calls) + {c} {
      var k :| k in calls' && d in calls'[k];
      if k != c.source {
        assert d in calls[k];
      } else if d != c {
        assert d in calls[k];
      }
    }
    forall d | d in AllCalls(calls) + {c} ensures d in AllCalls(calls') {
      if d != c {
        var k :| k in calls && d in calls[k];
        assert d in calls'[k];
      } else {
        assert d in calls'[c.source];
      }
    }
  }

  /** addMethod keeps every invariant of the store. */
  lemma AddMethodValid(g: Graph, m: MethodSignature)
    requires Valid(g)
    ensures Valid(AddMethod(g, m))
  {
  }

  /** addCall keeps every invariant of the store. */
  lemma AddCallValid(g: Graph, src: MethodSignature, tgt: MethodSignature, stmt: Stmt)
    requires Valid(g)
    ensures Valid(AddCall(g, src, tgt, stmt))
  {
    AddCallCounted(g, src, tgt, stmt);
  }

  /** addCall keeps the counter equal to the number of recorded calls. */
  lemma AddCallCounted(g: Graph, src: MethodSignature, tgt: MethodSignature, stmt: Stmt)
    requires CallsCounted(g)
    ensures CallsCounted(AddCall(g, src, tgt, stmt))
  {
    var c := Call(src, tgt, stmt);
    if !ContainsCall(g, c) {
      var targets := if src in g.calls then g.calls[src] else {};
      var r := AddCall(g, src, tgt, stmt);
      assert r.calls == g.calls[src := targets + {c}] && r.callCnt == g.callCnt + 1;
      AllCallsInsert(g.calls, c);
      forall k, d | k in r.calls && d in r.calls[k] ensures d.source == k {
        if k != src || d != c {
          assert d in g.calls[k];
        }
      }
    }
  }
}

=== FILE: iterators.dfy ===
/** The three chain iterators (TargetsOfUnitIterator, TargetsOfMethodIterator,
    CallersOfMethodIterator), findEdge, and the stream readers handed out by
    listener and newListener. */
module Iterators {
  import opened Types
  import Chain
  import Queue
  import opened Store

  /** Which iterator class a cursor belongs to, and the key it follows. */
  datatype IterKey = OfUnit(u: Stmt) | OfSrc(m: ContextMethod) | OfTgt(m: ContextMethod)

  /** The edge belongs to the iterator's key (srcUnit == u, getSrc().equals(m), getTgt().equals(m)). */
  predicate Matches(k: IterKey, e: Edge) {
    match k
    case OfUnit(u) => e.stmt == u
    case OfSrc(m) => e.src == m
    case OfTgt(m) => e.tgt == m
  }

  /** Where an iterator starts: the chain of the key's index head, or nothing (the
      sentinel) when the key has no index entry. */
  function ChainOf(g: Graph, k: IterKey): seq<EdgeRef> {
    match k
    case OfUnit(u) => if u in g.byUnit then g.byUnit[u] else []
    case OfSrc(m) => if m in g.bySrc then g.bySrc[m] else []
    case OfTgt(m) => if m in g.byTgt then g.byTgt[m] else []
  }

  /** An iterator: its key, and its position as the rest of the chain from the edge it returns next. */
  datatype Cursor = Cursor(key: IterKey, position: seq<EdgeRef>)

  function Start(g: Graph, k: IterKey): Cursor {
    Cursor(k, ChainOf(g, k))
  }

  /** edgesOutOf(Stmt): constructing the iterator over a null statement throws. */
  function EdgesOutOfUnit(g: Graph, u: Option<Stmt>): (r: Result<Cursor>)
    ensures r.Fail? <==> u.None?
    ensures r.Fail? ==> r.error == NullKey
    ensures r.Success? ==> r.value.key == OfUnit(u.value)
  {
    match u
    case None => Fail(NullKey)
    case Some(s) => Success(Start(g, OfUnit(s)))
  }

  /** edgesOutOf(ContextMethod): constructing the iterator over a null method throws. */
  function EdgesOutOfMethod(g: Graph, m: Option<ContextMethod>): (r: Result<Cursor>)
    ensures r.Fail? <==> m.None?
    ensures r.Fail? ==> r.error == NullKey
    ensures r.Success? ==> r.value.key == OfSrc(m.value)
  {
    match m
    case None => Fail(NullKey)
    case Some(s) => Success(Start(g, OfSrc(s)))
  }

  /** edgesInto(ContextMethod): constructing the iterator over a null method throws. */
  function EdgesInto(g: Graph, m: Option<ContextMethod>): (r: Result<Cursor>)
    ensures r.Fail? <==> m.None?
    ensures r.Fail? ==> r.error == NullKey
    ensures r.Success? ==> r.value.key == OfTgt(m.value)
  {
    match m
    case None => Fail(NullKey)
    case Some(s) => Success(Start(g, OfTgt(s)))
  }

  /** The iterators hand out object `x`: it exists, has the key and is not of the
      sentinel's kind. */
  predicate Yields(g: Graph, k: IterKey, x: EdgeRef) {
    x < |g.objs| && Matches(k, g.objs[x]) && g.objs[x].kind != Invalid
  }

  /** hasNext: the edge under the cursor exists, has the cursor's key and is not of
      the sentinel's kind. */
  predicate HasNext(g: Graph, it: Cursor) {
    |it.position| > 0 && Yields(g, it.key, it.position[0])
  }

  /** next: the edge under the cursor, and the cursor moved to the following edge of the chain. */
  function Next(g: Graph, it: Cursor): (EdgeRef, Cursor)
    requires HasNext(g, it)
  {
    (it.position[0], it.(position := it.position[1..]))
  }

  /** Everything the iterator returns before hasNext turns false, in order: the
      longest prefix of the position whose objects the iterator hands out. */
  function Remaining(g: Graph, it: Cursor): (r: seq<EdgeRef>)
    ensures |r| <= |it.position| && r == it.position[..|r|]
    ensures forall x :: x in r ==> Yields(g, it.key, x)
    ensures |r| < |it.position| ==> !Yields(g, it.key, it.position[|r|])
    ensures (forall i :: 0 <= i < |it.position| ==> Yields(g, it.key, it.position[i])) ==> r == it.position
    decreases |it.position|
  {
    if HasNext(g, it) then [it.position[0]] + Remaining(g, Next(g, it).1) else []
  }

  /** Drains an iterator with the usual hasNext/next loop. */
  method Collect(g: Graph, it: Cursor) returns (out: seq<EdgeRef>)
    ensures out == Remaining(g, it)
  {
    out := [];
    var cur := it;
    while HasNext(g, cur)
      invariant out + Remaining(g, cur) == Remaining(g, it)
      decreases |cur.position|
    {
      var (x, next) := Next(g, cur);
      assert Remaining(g, cur) == [x] + Remaining(g, next);
      out := out + [x];
      cur := next;
    }
  }

  /** Edge object `x` exists and its target method is `callee` (e.tgt() == callee). */
  predicate TargetIs(g: Graph, x: EdgeRef, callee: MethodSignature) {
    x < |g.objs| && g.objs[x].tgt.sig == callee
  }

  /** `r` is the first edge of `rem` whose target is `callee`, or None when there is none. */
  predicate FirstTarget(g: Graph, rem: seq<EdgeRef>, callee: MethodSignature, r: Option<EdgeRef>) {
    && (r.Some? ==> exists i :: 0 <= i < |rem| && rem[i] == r.value && TargetIs(g, rem[i], callee)
                                && forall j :: 0 <= j < i ==> !TargetIs(g, rem[j], callee))
    && (r.None? ==> forall x :: x in rem ==> !TargetIs(g, x, callee))
  }

  /** findEdge: walks the chain of `u` from its head while the edges have statement
      `u` and are not of the sentinel's kind, and returns the first whose target
      method is `callee`. */
  function FindEdge(g: Graph, u: Stmt, callee: MethodSignature): (r: Option<EdgeRef>)
    ensures FirstTarget(g, Remaining(g, Start(g, OfUnit(u))), callee, r)
  {
    FindFrom(g, Start(g, OfUnit(u)), callee)
  }

  function FindFrom(g: Graph, it: Cursor, callee: MethodSignature): (r: Option<EdgeRef>)
    ensures FirstTarget(g, Remaining(g, it), callee, r)
    decreases |it.position|
  {
    if !HasNext(g, it) then None
    else
      var (x, next) := Next(g, it);
      assert Remaining(g, it) == [x] + Remaining(g, next);
      if TargetIs(g, x, callee) then
        FirstTargetHead(g, x, Remaining(g, next), callee);
        Some(x)
      else
        var r := FindFrom(g, next, callee);
        FirstTargetCons(g, x, Remaining(g, next), callee, r);
        r
  }

  lemma FirstTargetHead(g: Graph, x: EdgeRef, rest: seq<EdgeRef>, callee: MethodSignature)
    requires TargetIs(g, x, callee)
    ensures FirstTarget(g, [x] + rest, callee, Some(x))
  {
    assert ([x] + rest)[0] == x;
  }

  lemma FirstTargetCons(g: Graph, x: EdgeRef, rest: seq<EdgeRef>, callee: MethodSignature, r: Option<EdgeRef>)
    requires !TargetIs(g, x, callee) && FirstTarget(g, rest, callee, r)
    ensures FirstTarget(g, [x] + rest, callee, r)
  {
    var rem := [x] + rest;
    if r.Some? {
      var k :| 0 <= k < |rest| && rest[k] == r.value && TargetIs(g, rest[k], callee)
               && forall j :: 0 <= j < k ==> !TargetIs(g, rest[j], callee);
      assert rem[k + 1] == r.value;
      forall j | 0 <= j < k + 1 ensures !TargetIs(g, rem[j], callee) {
        if j > 0 { assert rem[j] == rest[j - 1]; }
      }
    }
  }

  /** listener: a clone of the store's own reader, which never moves from the start
      of the stream. */
  function Listener(g: Graph): Queue.Reader {
    Queue.Reader(0)
  }

  /** newListener: a reader at the current end of the stream. */
  function NewListener(g: Graph): Queue.Reader {
    Queue.Reader(|g.stream|)
  }

  /** No reference occurs twice. */
  predicate NoDup(s: seq<EdgeRef>) {
    forall i, j :: 0 <= i < j < |s| ==> s[i] != s[j]
  }

  lemma ChainNoDup<E, K>(c: seq<nat>, k: K, objs: seq<E>, key: E -> K)
    requires Chain.ChainWF(c, k, objs, key)
    ensures NoDup(c)
  {
    forall i, j | 0 <= i < j < |c| ensures c[i] != c[j] {
      if i == 0 {
        assert c[j] == c[1..][j - 1];
      } else {
        assert c[i] == c[1..][i - 1] && c[j] == c[1..][j - 1];
      }
    }
  }

  /** The chain an iterator starts on holds only edges of its key, each once. */
  lemma ChainOfFacts(g: Graph, k: IterKey)
    requires Indexed(g)
    ensures forall i :: 0 <= i < |ChainOf(g, k)| ==> ChainOf(g, k)[i] < |g.objs| && Matches(k, g.objs[ChainOf(g, k)[i]])
    ensures NoDup(ChainOf(g, k))
  {
    match k
    case OfUnit(u) =>
      if u in g.byUnit { ChainNoDup(g.byUnit[u], u, g.objs, UnitKey); }
    case OfSrc(m) =>
      if m in g.bySrc { ChainNoDup(g.bySrc[m], m, g.objs, SrcKey); }
    case OfTgt(m) =>
      if m in g.byTgt { ChainNoDup(g.byTgt[m], m, g.objs, TgtKey); }
  }

  /** Every edge of the edge set with the iterator's key is threaded into the chain the iterator starts on. */
  lemma LiveInChainOf(g: Graph, k: IterKey, x: EdgeRef)
    requires Indexed(g) && x in g.edges && x < |g.objs| && Matches(k, g.objs[x])
    ensures x in ChainOf(g, k)
  {
  }

  /** An iterator returns every edge of the edge set with its key, each once, provided
      no edge of the sentinel's kind was ever added (such an edge ends its chains). */
  lemma {:induction false} IteratorComplete(g: Graph, k: IterKey)
    requires Indexed(g) && NoInvalidEdges(g)
    ensures Remaining(g, Start(g, k)) == ChainOf(g, k)
    ensures forall x :: x in g.edges && x < |g.objs| && Matches(k, g.objs[x]) ==> x in Remaining(g, Start(g, k))
    ensures NoDup(Remaining(g, Start(g, k)))
  {
    ChainOfFacts(g, k);
    forall x | x in g.edges && x < |g.objs| && Matches(k, g.objs[x]) ensures x in ChainOf(g, k) {
      LiveInChainOf(g, k, x);
    }
  }

  /** When the chains hold only edges of the edge set, an iterator returns exactly the
      edges of the edge set with its key, each once. */
  lemma IteratorExact(g: Graph, k: IterKey)
    requires Indexed(g) && Tidy(g) && NoInvalidEdges(g)
    ensures forall x :: x in Remaining(g, Start(g, k)) <==> x in g.edges && x < |g.objs| && Matches(k, g.objs[x])
    ensures NoDup(Remaining(g, Start(g, k)))
  {
    IteratorComplete(g, k);
    ChainOfLive(g, k);
  }

  lemma ChainOfLive(g: Graph, k: IterKey)
    requires Tidy(g)
    ensures forall x :: x in ChainOf(g, k) ==> x in g.edges
  {
    forall x | x in ChainOf(g, k) ensures x in g.edges {
      var i :| 0 <= i < |ChainOf(g, k)| && ChainOf(g, k)[i] == x;
      match k
      case OfUnit(u) => assert g.byUnit[u][i] == x;
      case OfSrc(m) => assert g.bySrc[m][i] == x;
      case OfTgt(m) => assert g.byTgt[m][i] == x;
    }
  }

  /** With tidy chains, findEdge finds an edge exactly when the edge set has an edge
      from `u` to `callee`, and what it finds is such an edge. */
  lemma FindEdgeExact(g: Graph, u: Stmt, callee: MethodSignature)
    requires Indexed(g) && Tidy(g) && NoInvalidEdges(g)
    ensures FindEdge(g, u, callee).Some? <==>
              exists y :: y in g.edges && y < |g.objs| && g.objs[y].stmt == u && g.objs[y].tgt.sig == callee
    ensures FindEdge(g, u, callee).Some? ==>
              var y := FindEdge(g, u, callee).value;
              y in g.edges && y < |g.objs| && g.objs[y].stmt == u && g.objs[y].tgt.sig == callee
  {
    var k := OfUnit(u);
    IteratorExact(g, k);
    FirstTargetExact(g, Remaining(g, Start(g, k)), u, callee, FindEdge(g, u, callee));
  }

  lemma FirstTargetExact(g: Graph, rem: seq<EdgeRef>, u: Stmt, callee: MethodSignature, r: Option<EdgeRef>)
    requires forall x :: x in rem <==> x in g.edges && x < |g.objs| && Matches(OfUnit(u), g.objs[x])
    requires FirstTarget(g, rem, callee, r)
    ensures r.Some? <==> exists y :: y in g.edges && y < |g.objs| && g.objs[y].stmt == u && g.objs[y].tgt.sig == callee
    ensures r.Some? ==> r.value in g.edges && r.value < |g.objs| && g.objs[r.value].stmt == u && g.objs[r.value].tgt.sig == callee
  {
    if y :| y in g.edges && y < |g.objs| && g.objs[y].stmt == u && g.objs[y].tgt.sig == callee {
      assert y in rem && TargetIs(g, y, callee);
    }
    if r.Some? {
      var i :| 0 <= i < |rem| && rem[i] == r.value && TargetIs(g, rem[i], callee);
      assert rem[i] in rem;
    }
  }
}

=== FILE: listeners.dfy ===
/** What the readers of the edge stream (listener, newListener) see as the store
    changes. */
module Listeners {
  import opened Types
  import Queue
  import opened Store
  import opened Iterators
  import opened EdgeOps

  /** listener(): a reader drained from the start of the stream sees exactly the
      edge objects of the edge set. */
  lemma ListenerSeesEdgeSet(g: Graph)
    requires StreamCovers(g) && StreamExact(g)
    ensures forall x :: x in Queue.Pending(g.stream, Listener(g).pos) <==> x in g.edges
  {
    forall x | x in g.edges ensures x in Queue.Pending(g.stream, 0) {
      assert g.stream[x] == Some(x);
    }
  }

  /** newListener(): a fresh reader has nothing to read yet. */
  lemma NewListenerSeesNothing(g: Graph)
    ensures Queue.Pending(g.stream, NewListener(g).pos) == []
  {
  }

  /** A reader that has not passed the end of the stream is told about an accepted
      edge after everything it had pending, and about nothing when addEdge refuses. */
  lemma AddEdgeNotifies(g: Graph, e: Edge, r: Queue.Reader)
    requires r.pos <= |g.stream|
    ensures var u := AddEdge(g, e);
            Queue.Pending(u.graph.stream, r.pos)
              == Queue.Pending(g.stream, r.pos) + (if u.changed then [|g.objs|] else [])
  {
    if AddEdge(g, e).changed {
      Queue.PendingAppend(g.stream, r.pos, |g.objs|);
    }
  }

  /** A listener taken just before addEdge sees exactly the new edge object. */
  lemma NewListenerSeesAdded(g: Graph, e: Edge)
    ensures var u := AddEdge(g, e);
            Queue.Pending(u.graph.stream, NewListener(g).pos) == (if u.changed then [|g.objs|] else [])
  {
    NewListenerSeesNothing(g);
    AddEdgeNotifies(g, e, NewListener(g));
  }

  /** After removeEdge, every reader has lost the removed edge from what it has
      pending, and nothing else; with removeInEdgeList false the readers are not
      told. */
  lemma RemoveEdgeHides(g: Graph, x: EdgeRef, flag: bool, r: Queue.Reader)
    requires x < |g.objs|
    ensures var u := RemoveEdgeWith(g, x, flag);
            Queue.Pending(u.graph.stream, r.pos)
              == if u.changed && flag then Queue.Keep(Queue.Pending(g.stream, r.pos), RefsWithValue(g, {g.objs[x]}))
                 else Queue.Pending(g.stream, r.pos)
  {
    Queue.PendingRemoveAll(g.stream, RefsWithValue(g, {g.objs[x]}), r.pos);
  }
}

=== FILE: queue.dfy ===
/** The edge stream (ChunkedQueue) and its readers (QueueReader). The stream is an
    append-only sequence of slots; removing an edge through a reader overwrites its
    slot with a tombstone (None), so reader positions never shift. A reader is a
    position into the stream and sees every slot at or after it, including slots
    appended after the reader was made. */
module Queue {
  import opened Types

  /** Slots of the stream: a reference to an edge, or a tombstone. */
  type Stream = seq<Option<nat>>

  datatype Reader = Reader(pos: nat)

  /** The references still in the stream at position `from` or later, in stream order:
      what a reader at `from` delivers when drained. */
  function Pending(q: Stream, from: nat): (r: seq<nat>)
    ensures forall x :: x in r <==> exists i :: from <= i < |q| && q[i] == Some(x)
    decreases |q| - from
  {
    if from >= |q| then []
    else
      var rest := Pending(q, from + 1);
      assert forall x :: (exists i :: from + 1 <= i < |q| && q[i] == Some(x)) ==> x in rest;
      match q[from]
      case Some(x) => [x] + rest
      case None => rest
  }

  /** QueueReader.hasNext: some slot, possibly a tombstone, is left. */
  predicate HasNext(q: Stream, r: Reader) {
    r.pos < |q|
  }

  /** QueueReader.next: the slot under the reader (None for a removed edge, which the
      callers skip) and the advanced reader. */
  function Next(q: Stream, r: Reader): (Option<nat>, Reader)
    requires HasNext(q, r)
  {
    (q[r.pos], Reader(r.pos + 1))
  }

  /** One step of a reader delivers the head of what it has pending. */
  lemma NextPending(q: Stream, r: Reader)
    requires HasNext(q, r)
    ensures var (x, r') := Next(q, r);
            Pending(q, r.pos) == (if x.Some? then [x.value] else []) + Pending(q, r'.pos)
  {
  }

  /** Every reader, old or new, sees an appended slot after everything it had pending. */
  lemma {:induction false} PendingAppend(q: Stream, from: nat, x: nat)
    requires from <= |q|
    ensures Pending(q + [Some(x)], from) == Pending(q, from) + [x]
    decreases |q| - from
  {
    var q' := q + [Some(x)];
    if from == |q| {
      assert Pending(q', from + 1) == [];
      assert q'[from] == Some(x);
    } else {
      PendingAppend(q, from + 1, x);
      assert q'[from] == q[from];
    }
  }

  /** QueueReader.remove: tombstones every slot whose reference is in `drop`.
      Slots are only ever blanked, never moved or filled; a slot keeps a reference
      exactly when it held one that is not dropped. */
  function RemoveAll(q: Stream, drop: set<nat>): (r: Stream)
    ensures |r| == |q|
    ensures forall i :: 0 <= i < |q| ==> r[i] == q[i] || r[i] == None
    ensures forall i :: 0 <= i < |q| ==> (r[i].Some? <==> q[i].Some? && q[i].value !in drop)
  {
    seq(|q|, i requires 0 <= i < |q| => if q[i].Some? && q[i].value in drop then None else q[i])
  }

  /** The references of `s` that are not in `drop`, in order. */
  function Keep(s: seq<nat>, drop: set<nat>): (r: seq<nat>)
    ensures forall x :: x in r <==> x in s && x !in drop
  {
    if s == [] then []
    else (if s[0] in drop then [] else [s[0]]) + Keep(s[1..], drop)
  }

  /** Removal through a reader takes the removed references out of what every reader has pending, and nothing else. */
  lemma {:induction false} PendingRemoveAll(q: Stream, drop: set<nat>, from: nat)
    ensures Pending(RemoveAll(q, drop), from) == Keep(Pending(q, from), drop)
    decreases |q| - from
  {
    if from < |q| {
      PendingRemoveAll(q, drop, from + 1);
      var p := Pending(q, from);
      match q[from]
      case Some(x) =>
        assert p == [x] + Pending(q, from + 1);
        assert p[1..] == Pending(q, from + 1);
      case None =>
    }
  }

  /** Drains a reader the way the store's clients do: step while hasNext, skip null. */
  method Drain(q: Stream, r: Reader) returns (out: seq<nat>)
    ensures out == Pending(q, r.pos)
  {
    out := [];
    var cur := r;
    while HasNext(q, cur)
      invariant out + Pending(q, cur.pos) == Pending(q, r.pos)
      decreases |q| - cur.pos
    {
      NextPending(q, cur);
      var x := q[cur.pos];
      var rest := Pending(q, cur.pos + 1);
      if x.Some? {
        assert out + Pending(q, cur.pos) == (out + [x.value]) + rest;
        out := out + [x.value];
      }
      cur := Reader(cur.pos + 1);
    }
    assert Pending(q, cur.pos) == [];
  }
}

=== FILE: types.dfy ===
/** Value types shared by the call-graph edge store: method and call identities,
    call-site statements, edge kinds and edges, plus the Option/Result wrappers
    used for the store's null and exception paths. */
module Types {

  /** The conventional Some/None datatype, standing for a Java reference that may be null. */
  datatype Option<+T> = None | Some(value: T)

  /** Failures the store signals with an exception. */
  datatype Failure =
    | NullKey        // an iterator was constructed over a null statement or method
    | Unsupported    // the operation throws UnsupportedOperationException

  datatype Result<+R> = Success(value: R) | Fail(error: Failure)

  /** Declaring type, name, parameter types and return type of a method. */
  datatype MethodSignature = MethodSignature(
    declaringType: string,
    name: string,
    parameterTypes: seq<string>,
    returnType: string)

  /** A call-site statement, compared by identity: the id stands for the object. */
  datatype Stmt = Stmt(id: nat)

  /** A method paired with an analysis context. The method is identified by its
      signature (one method object per signature); context 0 is the empty context.
      Values stand for objects: there is one ContextMethod object per method and
      context, so the `==` head checks and the `equals` lookups of the source agree. */
  datatype ContextMethod = ContextMethod(sig: MethodSignature, context: nat)

  /** Edge kinds. `Invalid` is the kind of the sentinel that ends every chain; an
      edge of this kind added by a caller also ends the chains it sits in. */
  datatype Kind = Invalid | Clinit | Static | Virtual | Interface | Special | Other(name: string)

  /** A call edge: source method in context, call site, target method in context, kind.
      Two edges are equal when all four components are. */
  datatype Edge = Edge(src: ContextMethod, stmt: Stmt, tgt: ContextMethod, kind: Kind)

  /** A context-free call: the (source, target, call site) triple the store counts. */
  datatype Call = Call(source: MethodSignature, target: MethodSignature, stmt: Stmt)

  /** The call an edge records, with the contexts projected away. */
  function CallOf(e: Edge): Call {
    Call(e.src.sig, e.tgt.sig, e.stmt)
  }

  /** Keys of the three chains an edge belongs to. */
  function UnitKey(e: Edge): Stmt { e.stmt }
  function SrcKey(e: Edge): ContextMethod { e.src }
  function TgtKey(e: Edge): ContextMethod { e.tgt }
}
